=== FILE: README.md ===
# tribe_crew knowledge tools in Dafny

This project models the tool layer of `tribe_crew`, a CrewAI agency crew, as
written in `src/tribe_crew/tools/tools.py`. It covers these parts:

- **The knowledge index (`RAGManager`).** A metadata table maps each file path
  to its content hash and chunk count. A vector collection maps each chunk id
  `"{path}_{i}"` to the chunk text, its embedding, its `source` path and its
  `chunk_index`. `update_file_if_changed` re-ingests a file only when it has no
  row or its hash differs from the stored one. It replaces every chunk of that source, then
  writes the metadata row.
- **The embedding fallback.** The texts are embedded one by one. If any text
  fails, the whole batch becomes 768-dimensional zero vectors.
- **The watcher filter (`FileChangeHandler`) and the initial scan.** These are
  the two ways files reach the index. They use different eligibility rules.
- **`CompanyKnowledgeBaseTool._run`.** It validates the query, falls back to
  canned answers when the vector store is missing or finds nothing, and
  otherwise numbers the results from 1.
- **The canned answers (`_fallback_search`).** A keyword classifier picks the
  answer. Groups are tested in priority order: past work, then brand, then
  technology, then a general answer. Every answer ends with the same note.
- **`FileReadTool`, `FolderReadTool` and the `PerplexityTool` checks.** These
  are the guards each tool applies before it reads a file or calls out.

The state is split by how the source uses it:

- The code that computes values is modelled as datatypes and functions:
  `KnowledgeIndex`, `Fallback`, `QueryInput`, `Eligibility` and the checks in
  `FileTools`.
- The objects that update their own fields are classes: `Rag.RAGManager`,
  `Rag.FileChangeHandler` and `KnowledgeTool.CompanyKnowledgeBaseTool`. Each
  stateful method is proved equal to a specification function. The lemmas
  about that function carry the properties: replace-by-source, idempotence,
  the empty-split case and what the initial scan leaves current.

### Modelling choices

- **External services.** SHA-256, the UTF-8 decoding of a file's bytes, the
  recursive character splitter, the Gemini embedding call and Chroma's
  nearest-neighbour search are function-valued parameters
  (`KnowledgeIndex.Services`, `Rag.Search`). The proofs hold for every hash,
  decoder, splitter and provider.
- **Dependencies flag.** `HAS_RAG_DEPS` is the `hasRagDeps` field of
  `Services`.
- **File system.** It is a map from the paths that exist to their bytes.
  The hash is taken of the bytes (tools.py:96-102, 184). The splitter gets
  the text that `decode` makes of them (tools.py:147), so two contents that
  decode alike but differ as bytes still count as changed
  (`KnowledgeIndex.ReencodedFileIsReindexed`).
- **Directory listings.** `rglob` and `glob` are sequences of entries in the
  order the listing yields them.
- **Chroma's `add`.** It is modelled as leaving ids that are already present
  alone (`AddMissing`). Chunk ids never collide (`ChunkIdInjective`). So
  `UpdateReplacesSource` shows that this choice never matters once
  `_remove_file_from_rag` has succeeded (see "Left out" for when it fails).
- **Lower-casing.** `.lower()` is modelled on ASCII letters only; see
  `Text.Lower` under "Left out" for why the comparisons stay exact.
- **`str.strip()`.** It uses Python's full whitespace set
  (`Text.IsSpace`).
- **`', '.join` of the allowed-extension set.** Its order depends on the
  string hash seed. So the listing is a parameter that must enumerate the
  set (`FileTools.Enumerates`).
- **The `:.3f` relevance rendering.** It is a parameter of
  `CompanyKnowledgeBaseTool`.

### Where the code and its documentation differ

- **Without the vector-store dependencies.** Which import of the optional
  block (tools.py:17-27) fails decides what happens:
  - If only `numpy` (line 23) fails, the splitter and `Document` are
    present and only the vector store is missing. This is the case the
    model's `hasRagDeps == false` follows: updates split the file and write
    its metadata row, and the collection is never touched.
  - If `langchain.schema` (line 22) fails, the splitter was already imported
    at line 21, so `RAGManager.__init__` succeeds. Every update then raises
    `NameError` at line 154, inside the `try`, and returns `False` at lines
    196-198 without writing the metadata row. The model does not follow this
    case (see "Left out").
  - If `langchain.text_splitter` (line 21) fails, `google.generativeai` was
    already imported at line 20, so `genai.configure` at line 56 or 60
    succeeds. `RAGManager.__init__` raises `NameError` when it builds the
    splitter at line 77, whether or not a Gemini key is set.
  - If an import at lines 18-20 fails, `RAGManager.__init__` raises
    `NameError` at line 56 or 60 when a Gemini key is set, and otherwise at
    line 77. In both of the last two cases no tool is built.
- **A file that splits into no chunks.** Its old chunks are deleted first.
  The call then returns `False` without writing the metadata row. The row
  keeps the old hash and chunk count while the collection holds none of the
  file's chunks, and the file is retried on every later scan
  (`KnowledgeIndex.EmptySplitKeepsNeedingUpdate`).
- **No size ceiling on indexing.** The 10 MB ceiling is applied only by
  `FileReadTool` (tools.py:401-404) and `FolderReadTool` (tools.py:363-367).
  The watcher (tools.py:35-45), the initial scan (tools.py:480-484) and
  `update_file_if_changed` (tools.py:140-198) index a file of any size. The
  model follows the code: `KnowledgeIndex.Update` and `KnowledgeIndex.Scan`
  take no size.
- **The watcher and the scan disagree on which files are eligible:**
  - The watcher matches the raw path text case-sensitively against 5
    extensions. The scan lower-cases the `pathlib` suffix and allows 8.
  - The watcher therefore ignores `Brief.MD` and `brief.json`, which the scan
    indexes.
  - The watcher accepts a file named just `.md`, which `pathlib` gives no
    suffix and the scan skips.

## Model

| member | source | states |
|---|---|---|
| Text.Strip | src/tribe_crew/tools/tools.py:495 | the stripped query is a slice of the query with only whitespace before and after it; it is empty exactly when the query is all whitespace, and otherwise neither starts nor ends with whitespace |
| Text.Lower | src/tribe_crew/tools/tools.py:528 | the result keeps the length, holds no upper-case ASCII letter, maps each upper-case letter to its lower-case partner in place and keeps every other character |
| Text.LowerIdempotent | src/tribe_crew/tools/tools.py:528 | lower-casing an already lower-cased string changes nothing |
| Text.ContainsAt | src/tribe_crew/tools/tools.py:530 | Python's `k in s` holds exactly when `k` occurs in `s` at some index |
| Text.NatToStringInjective | src/tribe_crew/tools/tools.py:166 | different chunk indices print as different decimal strings |
| Text.JoinHoldsParts | src/tribe_crew/tools/tools.py:409 | every part of a `', '.join` appears in the joined string |
| Paths.EndsWithExtension | src/tribe_crew/tools/tools.py:36-38 | a path whose text ends with an extension has a `pathlib` name ending with it, and that extension is the name's suffix unless the name is the extension alone |
| Paths.Name | src/tribe_crew/tools/tools.py:481-483 | `pathlib`'s `name`: the result holds no '/' and is never "."; which segment it is, is `Eligibility.NameInDirectory` |
| Paths.Suffix | src/tribe_crew/tools/tools.py:482 | `pathlib`'s `suffix`: empty, or a dot and at least one more character, ending the name, shorter than the name and with no further dot; which extension it is, is `Paths.SuffixOfExtension` |
| Paths.SuffixOfExtension | src/tribe_crew/tools/tools.py:482 | a name that ends with an extension and is longer than it has exactly that extension as its `pathlib` suffix |
| Eligibility.NameInDirectory | src/tribe_crew/tools/tools.py:481-483 | the `pathlib` name of `dir/file` is `file`, for any file segment other than "" and "." |
| Eligibility.WatcherAccepts | src/tribe_crew/tools/tools.py:36-38 | the watcher's filter: not a directory, the raw path ends with a watched extension, and the lower-cased name is not a README; its consequences are the lemmas below |
| Eligibility.ScanAccepts | src/tribe_crew/tools/tools.py:481-483 | the scan's filter: a file whose lower-cased suffix is allowed and whose lower-cased name is not a README; its consequences are the lemmas below |
| Eligibility.WatchedFileIsScanned | src/tribe_crew/tools/tools.py:35-39 | every file event the watcher forwards names a file the scan filter also accepts, unless the file's whole name is the extension |
| Eligibility.ScanWiderThanWatcherExtensions | src/tribe_crew/tools/tools.py:480-484 | the scan indexes `kb/brief.json`, which the watcher ignores |
| Eligibility.ScanWiderThanWatcherCase | src/tribe_crew/tools/tools.py:480-484 | the scan indexes `kb/Brief.MD` (case-insensitive suffix), which the watcher ignores (case-sensitive `endswith`) |
| Eligibility.BareExtensionOnlyWatched | src/tribe_crew/tools/tools.py:41-45 | the watcher forwards a file named `.md`, which has no `pathlib` suffix and which the scan skips |
| Eligibility.ReadmeNeverIndexed | src/tribe_crew/tools/tools.py:35-38 | a file named README.md or README.txt, in any letter case and in any directory, is refused by the watcher and by the scan |
| Embedding.ZeroVector | src/tribe_crew/tools/tools.py:118 | the fallback vector has 768 components, all 0.0 |
| Embedding.Embeddings | src/tribe_crew/tools/tools.py:104-119 | one vector per text, and each is the provider's vector for that text or a 768-component vector |
| Embedding.GetEmbeddings | src/tribe_crew/tools/tools.py:104-119 | one vector per text; the provider's vectors when every call succeeds; otherwise all zero vectors |
| Embedding.FailureZeroesWholeBatch | src/tribe_crew/tools/tools.py:115-119 | one failing text zeroes the vector of every text in the batch, including texts the provider could embed |
| KnowledgeIndex.ChunkIdInjective | src/tribe_crew/tools/tools.py:166 | two chunk ids `"{path}_{i}"` are equal only for the same path and index |
| KnowledgeIndex.DetectChange | src/tribe_crew/tools/tools.py:121-138 | a missing file, a new file, an unchanged file and a changed file are told apart exactly by existence, the presence of a row and the hash comparison |
| KnowledgeIndex.NeedsUpdate | src/tribe_crew/tools/tools.py:121-138 | a missing file needs no update; an unrecorded file does; a recorded file does exactly when its stored hash differs from the content's hash |
| KnowledgeIndex.RemoveSource | src/tribe_crew/tools/tools.py:200-213 | the chunks whose source is the path are gone and every other chunk is kept unchanged |
| KnowledgeIndex.Generation | src/tribe_crew/tools/tools.py:160-180 | the i-th text is stored under `"{path}_{i}"` with its embedding, source and `chunk_index` i, and no other id is added |
| KnowledgeIndex.AddMissing | src/tribe_crew/tools/tools.py:175-180 | the collection gains the new ids; entries already present keep their value |
| KnowledgeIndex.GenerationWellKeyed | src/tribe_crew/tools/tools.py:166-180 | a new generation stores every chunk under the id its source and index give it |
| KnowledgeIndex.Update | src/tribe_crew/tools/tools.py:140-198 | the update happens exactly when the file needs one and its decoded text splits into chunks; without a needed update nothing changes; only the path's row can be added; without the vector store the collection is untouched |
| KnowledgeIndex.UpdateReplacesSource | src/tribe_crew/tools/tools.py:140-198 | after a successful update with the vector store, the path's chunks are exactly the new ones, and the chunks of every other source are unchanged |
| KnowledgeIndex.UpdatePreservesWellKeyed | src/tribe_crew/tools/tools.py:164-180 | every update keeps each chunk stored under the id its source and index give it |
| KnowledgeIndex.UpdateRecordsFile | src/tribe_crew/tools/tools.py:182-190 | a successful update writes the content's hash and chunk count for the path, touches no other row, and leaves the path current |
| KnowledgeIndex.EmptySplitKeepsNeedingUpdate | src/tribe_crew/tools/tools.py:150-158 | with no chunks the call returns False with the path's old chunks already deleted, every other source's chunks kept and the metadata unwritten, so the file still needs an update |
| KnowledgeIndex.UpdateIdempotent | src/tribe_crew/tools/tools.py:140-198 | a second update of the same unchanged file returns False and changes nothing |
| KnowledgeIndex.UpdateKeepsCurrent | src/tribe_crew/tools/tools.py:182-190 | updating one file never makes a current file need an update |
| KnowledgeIndex.ReencodedFileIsReindexed | src/tribe_crew/tools/tools.py:96-102 | a recorded file whose bytes changed but decode to the same text is still re-indexed, and its new hash is recorded |
| KnowledgeIndex.UpdateMakesCurrent | src/tribe_crew/tools/tools.py:182-190 | updating a file that exists and splits into chunks leaves it current |
| KnowledgeIndex.Scan | src/tribe_crew/tools/tools.py:473-487 | the scan keeps every row already recorded, and leaves the collection alone without the vector store |
| KnowledgeIndex.ScanLeavesFilesCurrent | src/tribe_crew/tools/tools.py:473-487 | after the initial scan every eligible, existing file that splits into chunks is up to date |
| KnowledgeIndex.ScanTouchesOnlyScannedPaths | src/tribe_crew/tools/tools.py:480-484 | the initial scan writes metadata only for the paths of entries it accepts |
| Rag.HitsOf | src/tribe_crew/tools/tools.py:229-238 | every result carries the document and source of a stored chunk; when the store holds every matched id, there is exactly one result per match, in the store's order, with that chunk's document and source and the match's distance |
| Rag.QueryResults | src/tribe_crew/tools/tools.py:215-244 | no results without the vector store; otherwise the hits for the query embedding's matches, each showing a stored chunk |
| Rag.QueryAfterUpdateSeesNewGeneration | src/tribe_crew/tools/tools.py:215-240 | right after a successful update, every query hit from that file carries one of the file's new chunk texts |
| Rag.RAGManager.constructor | src/tribe_crew/tools/tools.py:50-81 | opens the stored metadata, and the stored collection only when the vector store is present |
| Rag.RAGManager.FileNeedsUpdate | src/tribe_crew/tools/tools.py:121-138 | true exactly when the file exists and either has no row or a row whose hash differs from its content's |
| Rag.RAGManager.RemoveFileFromRag | src/tribe_crew/tools/tools.py:200-213 | with the vector store, the collection loses exactly the path's chunks; the metadata is unchanged |
| Rag.RAGManager.Add | src/tribe_crew/tools/tools.py:175-180 | the collection becomes the old one plus the new ids |
| Rag.RAGManager.UpdateFileIfChanged | src/tribe_crew/tools/tools.py:140-198 | the result and the new metadata and collection are those of `KnowledgeIndex.Update`, and the collection stays well keyed |
| Rag.RAGManager.Query | src/tribe_crew/tools/tools.py:215-244 | no results without the vector store; otherwise the hits for the query embedding's matches, in order, each showing a stored chunk |
| Rag.FileChangeHandler.constructor | src/tribe_crew/tools/tools.py:32-33 | the handler forwards to the given manager |
| Rag.FileChangeHandler.OnModified | src/tribe_crew/tools/tools.py:35-39 | an event the watcher filter accepts updates its path; any other event leaves the index unchanged |
| Rag.FileChangeHandler.OnCreated | src/tribe_crew/tools/tools.py:41-45 | the same filter and update as for a modification |
| Rag.FileChangeHandler.Dispatch | src/tribe_crew/tools/tools.py:35-45 | the filter and update both event callbacks share |
| QueryInput.CheckQuery | src/tribe_crew/tools/tools.py:494-501 | a blank query is refused as empty; a non-blank query over 500 characters is refused as too long; a query is accepted exactly when neither holds, and its stripped form then has 1 to 500 characters |
| QueryInput.BlankBeforeLength | src/tribe_crew/tools/tools.py:259-265 | 501 spaces are reported as empty, not as too long |
| QueryInput.PaddingCountsTowardsLength | src/tribe_crew/tools/tools.py:263-265 | the limit counts the unstripped query, so 500 spaces and a letter are too long |
| Fallback.FallbackTopic | src/tribe_crew/tools/tools.py:528-567 | the past-projects answer exactly when the lower-cased query mentions a past keyword; brand exactly when it mentions a brand keyword and no past one; technology exactly when it mentions only technology keywords; otherwise general |
| Fallback.FallbackSearch | src/tribe_crew/tools/tools.py:526-567 | the answer starts with its topic's opening and ends with the common fallback note |
| Fallback.TopicText | src/tribe_crew/tools/tools.py:530-567 | each canned answer is its opening (the title line, or the general answer's first word), its details and the common note; its properties are `TopicTextFacts` and `TopicTextInjective` |
| Fallback.TopicTextFacts | src/tribe_crew/tools/tools.py:530-567 | every canned answer starts with its opening and ends with the same note |
| Fallback.TopicTextInjective | src/tribe_crew/tools/tools.py:530-567 | different topics have different canned answers |
| Fallback.SameAnswerSameTopic | src/tribe_crew/tools/tools.py:526-567 | two queries get the same fallback answer exactly when they fall under the same topic |
| Fallback.TechnologyImpliesTech | src/tribe_crew/tools/tools.py:549 | the keyword "technology" is redundant beside "tech" |
| Fallback.BrandBeforeTechnology | src/tribe_crew/tools/tools.py:538-549 | "Brand TECH" gets the brand answer: letter case is ignored and brand wins over technology |
| KnowledgeTool.ResultsHeader | src/tribe_crew/tools/tools.py:513 | the header line that quotes the stripped query |
| KnowledgeTool.ResultEntry | src/tribe_crew/tools/tools.py:515-518 | one result: its number, its source's file name, its text and its relevance |
| KnowledgeTool.ResultEntries | src/tribe_crew/tools/tools.py:514-518 | the entries of the hits numbered from 1 in the order given; their layout is `EntryPlacement` |
| KnowledgeTool.EntryPlacement | src/tribe_crew/tools/tools.py:515-518 | hit k is rendered as result number k + 1, right after the entries of the hits before it |
| KnowledgeTool.EntryNumbersDistinct | src/tribe_crew/tools/tools.py:515-516 | different hits get different result numbers |
| KnowledgeTool.CompanyKnowledgeBaseTool.constructor | src/tribe_crew/tools/tools.py:434-447 | the tool owns a fresh manager, whose index is the stored one after the initial scan |
| KnowledgeTool.CompanyKnowledgeBaseTool.InitialScan | src/tribe_crew/tools/tools.py:473-487 | the index afterwards is that of `KnowledgeIndex.Scan` over the entries, and stays well keyed |
| KnowledgeTool.CompanyKnowledgeBaseTool.Run | src/tribe_crew/tools/tools.py:489-520 | the empty-query and too-long errors come first; then the fallback answer when the vector store is missing or finds nothing; otherwise the header and the numbered results |
| KnowledgeTool.CompanyKnowledgeBaseTool.FormatResults | src/tribe_crew/tools/tools.py:512-520 | the response is the header followed by the entries numbered from 1 |
| FileTools.CheckedRead | src/tribe_crew/tools/tools.py:388-413 | not found, not a file, too large and disallowed type are reported exactly in that order of checks; an oversize file is refused for size whatever its type and is never read; content is returned exactly when every check passes and the read succeeds |
| FileTools.RefusalMessage | src/tribe_crew/tools/tools.py:388-424 | the message for each refusal, with the wording of the branch that reports it |
| FileTools.FileRead | src/tribe_crew/tools/tools.py:388-424 | the file's text when `CheckedRead` passes, otherwise the message for its refusal |
| FileTools.TypeRefusalListsAllowed | src/tribe_crew/tools/tools.py:407-409 | the disallowed-type message names every allowed extension |
| FileTools.SizeCheckedBeforeType | src/tribe_crew/tools/tools.py:401-409 | an oversize `.png` is reported as too large, not as a disallowed type |
| FileTools.FolderToScan | src/tribe_crew/tools/tools.py:343 | the given folder unless it is absent or empty, else the knowledge folder |
| FileTools.FolderPart | src/tribe_crew/tools/tools.py:363-374 | an oversize file's skip note, else its text under a `=== FILE: name ===` line, else its read error |
| FileTools.FolderParts | src/tribe_crew/tools/tools.py:358-374 | one piece per entry that passes the filter, and no pieces exactly when none does |
| FileTools.FolderPartsInOrder | src/tribe_crew/tools/tools.py:358-374 | the piece of the k-th eligible entry is that entry's own piece, placed after the pieces of the eligible entries before it |
| FileTools.OversizeIsSkipped | src/tribe_crew/tools/tools.py:363-367 | an oversize eligible file, at any position, contributes only the skip note, and every later eligible file still contributes its own piece after it |
| FileTools.FolderRead | src/tribe_crew/tools/tools.py:339-379 | a missing folder and a non-directory are reported first; with no pieces the "no readable files" message lists the allowed extensions; otherwise the pieces joined by newlines |
| FileTools.PrepareRequest | src/tribe_crew/tools/tools.py:253-302 | the query errors come first, then the missing key, then the malformed key; a request is built exactly when all checks pass, for the stripped query with the bearer key |
| FileTools.WellFormedKey | src/tribe_crew/tools/tools.py:273 | a key is well formed when it starts with `pplx-` or `sk-` and has at least 20 characters |
| FileTools.KeyAccepted | src/tribe_crew/tools/tools.py:259-302 | an accepted query with a well-formed key always gives a request |
| FileTools.ShortKeyRefused | src/tribe_crew/tools/tools.py:273-274 | a `pplx-` key under 20 characters is refused as malformed |
| FileTools.TwentyCharacterKeyAccepted | src/tribe_crew/tools/tools.py:273-274 | an `sk-` key of exactly 20 characters is accepted |

## Left out

- Persistence: SQLite (`_init_database`), Chroma's on-disk client, the
  `last_updated` and `timestamp` columns, and `datetime.now()`.
- The SHA-256 computation and the recursive character splitter's chunking
  algorithm. They are parameters, and no proof depends on what they
  compute: the chunk texts and embeddings come from the splitter, and
  change detection and the recorded row from the hash, for any splitter and
  any hash.
- The Gemini call itself and Chroma's cosine ranking. They are parameters
  (`Provider`, `Search`).
- The transience of embedding failures. The provider is a fixed function,
  so a text it fails on once it fails on every time; in the source a
  failure is usually a passing network error, and the same text may embed
  on the next call. No proof depends on this.
- The bound on the number of results. `Search` is any function of the
  query vector, the collection and `n`, so it may return more than `n`
  matches, and `Run` may then list more than the 5 results it asks for
  (tools.py:496); Chroma returns at most `n_results`. No proof depends on
  this.
- The file read three times during one update. `KnowledgeIndex.Update`
  sees one snapshot of the file system. The source hashes the file in
  `file_needs_update` (tools.py:126, called at 142), reads its text at
  tools.py:147, and hashes it again at tools.py:184, with the deletion, the
  split and one Gemini call per chunk in between. A write that lands
  between 147 and 184, for example while the watcher handles a `modified`
  event fired mid-write, makes the row record the new bytes' hash while
  the collection holds chunks of the old text. The next event then finds
  the hashes equal, and the stale chunks are served until the bytes change
  again. The model cannot show this.
- Rag.HitsOf: a match whose id the collection does not hold is dropped,
  where Chroma would never return one. The contract is exact, one hit per
  match, whenever every matched id is stored, which is every answer Chroma
  gives.
- Text.Lower: lowers ASCII letters only, not the full Unicode mapping of
  `str.lower()`. Every string the core lower-cases is compared with ASCII
  targets (extensions, `readme.*`, the fallback keywords), and that keeps
  the comparisons exact:
  - The only non-ASCII characters that lower to ASCII are the Kelvin sign,
    which lowers to `k`, and `İ`, which lowers to `i` followed by a combining
    dot.
  - `k` appears in none of the targets.
  - No target has an `i` that is followed by a combining dot or ends the
    target.
- The watchdog `Observer` thread, `_start_file_monitoring`, `cleanup` and
  `__del__`. The model has no concurrency; event callbacks are method calls.
- The Perplexity HTTP request, its response parsing and its mapping of
  timeouts, connection errors and HTTP 401/429/other statuses to messages.
- Exceptions, and what they lead to:
  - a failing `stat`, `glob` or `rglob` (the folder tool's "unexpected
    error" message, or an aborted initial scan);
  - a failing `open` in `_get_file_hash` (tools.py:99) or a failing SQLite
    query (tools.py:128-133) during `file_needs_update`. That call runs at
    tools.py:142, before the `try`, so the exception leaves
    `update_file_if_changed`. In `_initial_scan` it is caught at
    tools.py:486-487 and ends the scan, so later files are not visited; in
    the watcher it leaves the event callback;
  - a failing `collection.get` or `collection.delete` inside
    `_remove_file_from_rag`. It is caught at tools.py:212-213 and not
    raised again, so `update_file_if_changed` carries on. It splits, embeds
    and calls `add` (tools.py:176), which keeps the old chunk under every
    id `"{path}_{i}"` that survived, and every old chunk with an index
    past the new count stays too. The call then writes the new hash
    (tools.py:185-191) and returns `True`. The path counts as current, so
    the stale chunks are served until its bytes change again. The model's
    removal always succeeds;
  - any other failure inside the `try` of `update_file_if_changed` or of
    `query`, which returns `False` or `[]` without touching the stores
    further;
  - a failure while formatting the results in `_run`, which answers with the
    fallback.
- The failed `langchain.schema` import (tools.py:22). In that case every
  update returns `False` and writes no metadata, while the model's
  `hasRagDeps == false` path splits the file and writes its row. The model
  covers only the case where `numpy` is the failing import.
- UTF-8 decoding with `errors='replace'` and universal newlines
  (tools.py:147). It is the `decode` parameter of `Services`, so the proofs
  hold for any decoder. `FileReadTool` and `FolderReadTool` are given the
  read's outcome (text or error) directly. `FileReadTool`'s
  `UnicodeDecodeError` branch (tools.py:419-420) is kept, though with
  `errors='replace'` it cannot be reached in the source; `FolderReadTool`
  catches every read failure in one branch (tools.py:373-374).
- Floating-point formatting of the relevance score (`:.3f`). It is a
  parameter.
- Path resolution (`Path.resolve()`, symlinks). The file tool is given the
  resolved path's kind, size and name.

=== FILE: eligibility.dfy ===
/**
 * Which files the knowledge index and the folder tools look at: the watcher's
 * filter (case-sensitive text suffix over five extensions), the scan/folder
 * filter (case-insensitive `pathlib` suffix over eight extensions), the README
 * exclusion and the 10 MB size ceiling.
 */
module Eligibility {
  import opened Text
  import opened Paths

  /** The extensions the watcher tests with `str.endswith`. */
  const WatchedExtensions: seq<string> := [".txt", ".md", ".pdf", ".doc", ".docx"]

  /** The extensions the initial scan, the folder tool and the file tool allow. */
  const AllowedExtensions: set<string> := {".txt", ".md", ".pdf", ".doc", ".docx", ".json", ".yaml", ".yml"}

  /** README files are documentation, not knowledge. */
  const IgnoredNames: set<string> := {"readme.md", "readme.txt"}

  /** 10 MB, the largest file the folder and file tools read. */
  const MaxFileSize: nat := 10 * 1024 * 1024

  /** A watchdog create/modify event. */
  datatype FileEvent = FileEvent(srcPath: string, isDirectory: bool)

  predicate IsIgnoredName(name: string) {
    Lower(name) in IgnoredNames
  }

  predicate HasAllowedSuffix(name: string) {
    Lower(Suffix(name)) in AllowedExtensions
  }

  /** The filter of `FileChangeHandler.on_modified` and `on_created`. */
  predicate WatcherAccepts(e: FileEvent) {
    && !e.isDirectory
    && (exists ext | ext in WatchedExtensions :: EndsWith(e.srcPath, ext))
    && !IsIgnoredName(Name(e.srcPath))
  }

  /** The filter of the initial scan and of the folder tool, for a directory entry at `path`. */
  predicate ScanAccepts(path: string, isFile: bool) {
    isFile && HasAllowedSuffix(Name(path)) && !IsIgnoredName(Name(path))
  }

  /** A file larger than the ceiling is skipped or refused, never read. */
  predicate TooLarge(size: nat) {
    size > MaxFileSize
  }

  /** Each watched extension is an extension in lower case that the scan also allows. */
  lemma WatchedExtensionFacts(ext: string)
    requires ext in WatchedExtensions
    ensures IsExtension(ext) && Lower(ext) == ext && ext in AllowedExtensions
  {
    assert Lower(ext) == ext by {
      assert forall i | 0 <= i < |ext| :: 'a' <= ext[i] <= 'z' || ext[i] == '.';
    }
  }

  /**
   * Every event the watcher acts on is a file the scan would also index,
   * except a file whose whole name is one of the extensions (such as ".md"),
   * which `pathlib` treats as having no suffix.
   */
  lemma {:induction false} WatchedFileIsScanned(p: string)
    requires WatcherAccepts(FileEvent(p, false))
    requires Name(p) !in WatchedExtensions
    ensures ScanAccepts(p, true)
  {
    var ext :| ext in WatchedExtensions && EndsWith(p, ext);
    WatchedExtensionFacts(ext);
    EndsWithExtension(p, ext);
  }

  /** The name of "dir/file" for a plain file name. */
  lemma NameInDirectory(dir: string, file: string)
    requires file != "" && file != "." && forall j | 0 <= j < |file| :: file[j] != '/'
    ensures Name(dir + "/" + file) == file
  {
    var p := dir + "/" + file;
    SegmentStartIs(p, |dir| + 1);
    assert p[|dir| + 1..] == file;
  }

  /** A path whose last character ends none of the watched extensions is never watched. */
  lemma NotWatchedByLastChar(p: string)
    requires p != [] && p[|p| - 1] !in {'t', 'd', 'f', 'c', 'x'}
    ensures forall ext | ext in WatchedExtensions :: !EndsWith(p, ext)
  {
    forall ext | ext in WatchedExtensions ensures !EndsWith(p, ext) {
      if |ext| <= |p| {
        assert p[|p| - |ext|..][|ext| - 1] == p[|p| - 1];
      }
    }
  }

  /** Lower-casing a string without upper-case ASCII letters changes nothing. */
  lemma LowerOfLowercase(s: string)
    requires forall i | 0 <= i < |s| :: !('A' <= s[i] <= 'Z')
    ensures Lower(s) == s
  {
  }

  /** The scan indexes extensions the watcher ignores. */
  lemma ScanWiderThanWatcherExtensions()
    ensures ScanAccepts("kb/brief.json", true) && !WatcherAccepts(FileEvent("kb/brief.json", false))
  {
    NameInDirectory("kb", "brief.json");
    assert "kb" + "/" + "brief.json" == "kb/brief.json";
    LastIndexOfIs("brief.json", '.', 5);
    assert Suffix("brief.json") == ".json";
    LowerOfLowercase(".json");
    LowerOfLowercase("brief.json");
    NotWatchedByLastChar("kb/brief.json");
  }

  /** The scan compares suffixes case-insensitively, the watcher does not. */
  lemma ScanWiderThanWatcherCase()
    ensures ScanAccepts("kb/Brief.MD", true) && !WatcherAccepts(FileEvent("kb/Brief.MD", false))
  {
    NameInDirectory("kb", "Brief.MD");
    assert "kb" + "/" + "Brief.MD" == "kb/Brief.MD";
    LastIndexOfIs("Brief.MD", '.', 5);
    assert Suffix("Brief.MD") == ".MD";
    assert Lower(".MD") == ".md";
    assert Lower("Brief.MD")[0] == 'b';
    NotWatchedByLastChar("kb/Brief.MD");
  }

  /** `pathlib` gives a name made of a dot and letters no suffix. */
  lemma BareExtensionHasNoSuffix()
    ensures !HasAllowedSuffix(".md")
  {
    LastIndexOfIs(".md", '.', 0);
    assert Lower(Suffix(".md")) == "";
  }

  /** The watcher reacts to a file named only ".md", which the scan never indexes. */
  lemma BareExtensionOnlyWatched()
    ensures WatcherAccepts(FileEvent("kb/.md", false)) && !ScanAccepts("kb/.md", true)
  {
    NameInDirectory("kb", ".md");
    assert "kb" + "/" + ".md" == "kb/.md";
    LowerOfLowercase(".md");
    assert ".md" in WatchedExtensions && EndsWith("kb/.md", ".md");
    BareExtensionHasNoSuffix();
  }

  /**
   * A file called README.md or README.txt, in any letter case and in any
   * directory, is neither forwarded by the watcher nor picked up by the scan.
   */
  lemma ReadmeNeverIndexed(dir: string, file: string, isDirectory: bool, isFile: bool)
    requires Lower(file) in IgnoredNames
    ensures !WatcherAccepts(FileEvent(dir + "/" + file, isDirectory))
    ensures !ScanAccepts(dir + "/" + file, isFile)
  {
    forall j | 0 <= j < |file| ensures file[j] != '/' {
      var l := Lower(file);
      assert l == "readme.md" || l == "readme.txt";
      assert l[j] == LowerChar(file[j]);
      assert l[j] != '/';
    }
    NameInDirectory(dir, file);
  }
}

=== FILE: embedding.dfy ===
/**
 * `RAGManager._get_embeddings`: one embedding per input text from an external
 * provider; if the provider fails on any text, the whole batch is replaced by
 * zero vectors of the model's dimension.
 */
module Embedding {
  import opened Wrappers

  type Vector = seq<real>

  /** Dimension of the fallback vector (that of Gemini's `embedding-001`). */
  const EmbeddingDim: nat := 768

  /** An embedding provider: `None` when the call raises for that text. */
  type Provider = string -> Option<Vector>

  function ZeroVector(): (v: Vector)
    ensures |v| == EmbeddingDim && forall i | 0 <= i < |v| :: v[i] == 0.0
  {
    seq(EmbeddingDim, _ => 0.0)
  }

  predicate AllEmbedded(provider: Provider, texts: seq<string>) {
    forall i | 0 <= i < |texts| :: provider(texts[i]).Some?
  }

  /** The batch `_get_embeddings` returns: the provider's vectors, or zeros throughout. */
  function Embeddings(provider: Provider, texts: seq<string>): (r: seq<Vector>)
    ensures |r| == |texts|
    ensures forall i | 0 <= i < |r| :: |r[i]| == EmbeddingDim || provider(texts[i]) == Some(r[i])
  {
    if AllEmbedded(provider, texts)
    then seq(|texts|, i requires 0 <= i < |texts| => provider(texts[i]).value)
    else seq(|texts|, _ => ZeroVector())
  }

  /**
   * Asks the provider text by text and stops at the first failure. The result
   * is aligned with the input, and is all zero vectors as soon as one text fails.
   */
  method GetEmbeddings(provider: Provider, texts: seq<string>) returns (r: seq<Vector>)
    ensures |r| == |texts|
    ensures AllEmbedded(provider, texts) ==> forall i | 0 <= i < |texts| :: r[i] == provider(texts[i]).value
    ensures !AllEmbedded(provider, texts) ==> forall i | 0 <= i < |texts| :: r[i] == ZeroVector()
    ensures r == Embeddings(provider, texts)
  {
    var embeddings: seq<Vector> := [];
    var i := 0;
    while i < |texts|
      invariant 0 <= i <= |texts|
      invariant |embeddings| == i
      invariant forall j | 0 <= j < i :: provider(texts[j]).Some? && embeddings[j] == provider(texts[j]).value
    {
      var result := provider(texts[i]);
      if result.None? {
        return seq(|texts|, _ => ZeroVector());
      }
      embeddings := embeddings + [result.value];
      i := i + 1;
    }
    return embeddings;
  }

  /**
   * The fallback is whole-batch: when one text fails, a text the provider
   * could embed still gets a zero vector.
   */
  lemma FailureZeroesWholeBatch(provider: Provider, texts: seq<string>, bad: nat, good: nat)
    requires bad < |texts| && good < |texts|
    requires provider(texts[bad]).None?
    ensures |Embeddings(provider, texts)| == |texts|
    ensures Embeddings(provider, texts)[good] == ZeroVector()
  {
  }
}

=== FILE: fallback.dfy ===
/**
 * `CompanyKnowledgeBaseTool._fallback_search`: a canned answer chosen by
 * keywords in the lower-cased query, tested in a fixed priority order.
 */
module Fallback {
  import opened Text

  const PastKeywords: seq<string> := ["past", "project", "success", "case", "study"]
  const BrandKeywords: seq<string> := ["brand", "value", "ethos", "identity"]
  const TechKeywords: seq<string> := ["technology", "tech", "innovation", "digital"]

  /** The four canned answers. */
  datatype Topic = PastProjects | BrandValues | TechnologyCapabilities | General

  /** Python's `any(keyword in query for keyword in keywords)`. */
  predicate MentionsAny(query: string, keywords: seq<string>) {
    exists i | 0 <= i < |keywords| :: Contains(query, keywords[i])
  }

  /** The sentence every fallback answer ends with. */
  const FallbackNote: string :=
    "Note: This is fallback data. For full knowledge base access, ensure RAG dependencies are installed "
    + "and knowledge_base folder contains relevant files."

  const Bullet: string := "\U{2022} "

  /**
   * How each answer opens: its title line, or, for the general answer, which
   * has no title line, its first word.
   */
  function Opening(t: Topic): (h: string)
    ensures |h| > 0
  {
    match t
    case PastProjects => "Past Project Examples (Fallback):\n"
    case BrandValues => "Company Brand Values (Fallback):\n"
    case TechnologyCapabilities => "Technology Capabilities (Fallback):\n"
    case General => "Our "
  }

  /** What each answer says between its first line and the note. */
  function Details(t: Topic): string {
    match t
    case PastProjects =>
      Bullet + "'Future Forward Summit' - A major tech client event featuring interactive AI art installations, "
      + "holographic displays, and VR networking spaces\n"
      + Bullet + "'Green Horizon Gala' - Environmental NGO event that was fully carbon-neutral with sustainable "
      + "materials and zero-waste catering\n"
      + Bullet + "'Innovation Nexus Conference' - B2B tech conference with AI-powered matchmaking and real-time "
      + "collaboration tools\n"
      + "Our brand ethos: 'Meaningful Moments, Measurable Impact'\n\n"
    case BrandValues =>
      Bullet + "Core Ethos: 'Meaningful Moments, Measurable Impact'\n"
      + Bullet + "Focus: Immersive, technology-driven brand experiences\n"
      + Bullet + "Specialization: Corporate events, conferences, and brand activations\n"
      + Bullet + "Differentiator: Integration of cutting-edge technology with human-centered design\n"
      + Bullet + "Commitment: Sustainable and socially responsible event practices\n\n"
    case TechnologyCapabilities =>
      Bullet + "AI-powered event personalization and matchmaking\n"
      + Bullet + "Interactive installations and digital art\n"
      + Bullet + "VR/AR experiences and immersive environments\n"
      + Bullet + "Real-time analytics and engagement tracking\n"
      + Bullet + "Sustainable tech solutions and carbon footprint monitoring\n\n"
    case General =>
      "company excels at creating immersive, technology-driven brand experiences. "
      + "Past successes include the 'Future Forward Summit' for a major tech client, "
      + "which featured interactive AI art installations, and the 'Green Horizon Gala' "
      + "for an environmental NGO, which was a fully carbon-neutral event. Our brand "
      + "ethos is 'Meaningful Moments, Measurable Impact'.\n\n"
  }

  /** A whole canned answer. */
  function TopicText(t: Topic): string {
    Opening(t) + Details(t) + FallbackNote
  }

  /**
   * The answer `_fallback_search` picks: that of the first keyword group the
   * lower-cased query mentions, each group taking priority over the groups
   * after it, and the general answer when it mentions none.
   */
  function FallbackTopic(query: string): (t: Topic)
    ensures t == PastProjects <==> MentionsAny(Lower(query), PastKeywords)
    ensures t == BrandValues <==>
      !MentionsAny(Lower(query), PastKeywords) && MentionsAny(Lower(query), BrandKeywords)
    ensures t == TechnologyCapabilities <==>
      && !MentionsAny(Lower(query), PastKeywords) && !MentionsAny(Lower(query), BrandKeywords)
      && MentionsAny(Lower(query), TechKeywords)
    ensures t == General <==>
      && !MentionsAny(Lower(query), PastKeywords) && !MentionsAny(Lower(query), BrandKeywords)
      && !MentionsAny(Lower(query), TechKeywords)
  {
    var q := Lower(query);
    if MentionsAny(q, PastKeywords) then PastProjects
    else if MentionsAny(q, BrandKeywords) then BrandValues
    else if MentionsAny(q, TechKeywords) then TechnologyCapabilities
    else General
  }

  /**
   * `_fallback_search`: the canned answer for the query's topic. Every answer
   * starts with its topic's own first line and ends with the same note.
   */
  function FallbackSearch(query: string): (r: string)
    ensures StartsWith(r, Opening(FallbackTopic(query)))
    ensures EndsWith(r, FallbackNote) && |r| > |FallbackNote|
  {
    var t := FallbackTopic(query);
    TopicTextFacts(t);
    TopicText(t)
  }

  /** Two queries get the same fallback answer exactly when they fall under the same topic. */
  lemma SameAnswerSameTopic(q1: string, q2: string)
    ensures FallbackSearch(q1) == FallbackSearch(q2) <==> FallbackTopic(q1) == FallbackTopic(q2)
  {
    if FallbackSearch(q1) == FallbackSearch(q2) {
      TopicTextInjective(FallbackTopic(q1), FallbackTopic(q2));
    }
  }

  /** The letter each answer starts with. */
  function Initial(t: Topic): char {
    match t
    case PastProjects => 'P'
    case BrandValues => 'C'
    case TechnologyCapabilities => 'T'
    case General => 'O'
  }

  lemma OpeningInitial(t: Topic)
    ensures Opening(t)[0] == Initial(t)
  {
    match t
    case PastProjects => assert Opening(PastProjects)[0] == 'P';
    case BrandValues => assert Opening(BrandValues)[0] == 'C';
    case TechnologyCapabilities => assert Opening(TechnologyCapabilities)[0] == 'T';
    case General => assert Opening(General)[0] == 'O';
  }

  lemma AppendFacts(h: string, d: string, n: string)
    requires |h| > 0
    ensures StartsWith(h + d + n, h) && EndsWith(h + d + n, n) && |h + d + n| > |n| && (h + d + n)[0] == h[0]
  {
    assert (h + d + n)[..|h|] == h;
    assert (h + d + n)[|h + d|..] == n;
  }

  /** Every answer ends with the note and starts with its topic's letter. */
  lemma TopicTextFacts(t: Topic)
    ensures StartsWith(TopicText(t), Opening(t))
    ensures EndsWith(TopicText(t), FallbackNote) && |TopicText(t)| > |FallbackNote|
    ensures TopicText(t)[0] == Initial(t)
  {
    AppendFacts(Opening(t), Details(t), FallbackNote);
    OpeningInitial(t);
  }

  /** Different topics give different answers. */
  lemma TopicTextInjective(t: Topic, u: Topic)
    requires TopicText(t) == TopicText(u)
    ensures t == u
  {
    TopicTextFacts(t);
    TopicTextFacts(u);
    InitialInjective(t, u);
  }

  lemma InitialInjective(t: Topic, u: Topic)
    requires Initial(t) == Initial(u)
    ensures t == u
  {
  }

  /** "technology" is a redundant keyword: any query it matches, "tech" matches too. */
  lemma TechnologyImpliesTech(q: string)
    requires Contains(q, "technology")
    ensures Contains(q, "tech")
  {
    ContainsAt(q, "technology");
    var i :| OccursAt(q, "technology", i);
    assert q[i..i + 4] == q[i..i + 10][..4] == "tech";
    assert OccursAt(q, "tech", i);
    ContainsAt(q, "tech");
  }

  /** Letter case does not matter, and brand wins over technology: "Brand TECH" gets the brand answer. */
  lemma BrandBeforeTechnology()
    ensures FallbackTopic("Brand TECH") == BrandValues
  {
    LowerBrandTech();
    NoPastKeyword();
    MentionsBrand();
  }

  lemma LowerBrandTech()
    ensures Lower("Brand TECH") == "brand tech"
  {
  }

  lemma NoPastKeyword()
    ensures !MentionsAny("brand tech", PastKeywords)
  {
    var q := "brand tech";
    forall i | 0 <= i < |PastKeywords| ensures !Contains(q, PastKeywords[i]) {
      AbsentByFirstChar(q, PastKeywords[i]);
    }
  }

  /** A keyword whose first character appears at no place it could start is not contained. */
  lemma AbsentByFirstChar(q: string, k: string)
    requires |k| > 0 && forall j | 0 <= j <= |q| - |k| :: q[j] != k[0]
    ensures !Contains(q, k)
  {
    forall j | 0 <= j <= |q| - |k| ensures !OccursAt(q, k, j) {
      assert q[j..j + |k|][0] == q[j];
    }
    ContainsAt(q, k);
  }

  lemma MentionsBrand()
    ensures MentionsAny("brand tech", BrandKeywords)
  {
    var q := "brand tech";
    ContainsAt(q, "brand");
    assert OccursAt(q, "brand", 0);
    assert Contains(q, BrandKeywords[0]);
  }
}

=== FILE: file_tools.dfy ===
/**
 * The three tools that read input before any indexing: `FileReadTool` (one
 * file, guarded by existence, kind, size and extension checks in that order),
 * `FolderReadTool` (every eligible file of a folder, oversize ones skipped)
 * and the validation `PerplexityTool` performs before its web request.
 */
module FileTools {
  import opened Wrappers
  import opened Text
  import opened Paths
  import opened Eligibility
  import opened QueryInput

  /** The exception classes the tools tell apart when opening or reading a file. */
  datatype ErrorKind = FileVanished | PermissionDenied | DecodeFailure | OsFailure | OtherFailure

  /** A failed open or read, with the exception's text. */
  datatype ReadError = ReadError(kind: ErrorKind, detail: string)

  /** What opening and reading a file yields. */
  datatype ReadOutcome = Content(text: string) | Failed(error: ReadError)

  /** What the file system says about the resolved path given to `FileReadTool`. */
  datatype FileTarget =
    | Missing
    | NotRegularFile
    | RegularFile(resolved: string, size: nat, read: ReadOutcome)

  /** Why `FileReadTool` returns no content. */
  datatype Refusal =
    | NotFound
    | NotAFile
    | TooLargeFile
    | TypeNotAllowed(suffix: string)
    | ReadFailed(error: ReadError)

  /**
   * The order in which `', '.join` happens to visit the allowed extensions:
   * each of them once. (Set iteration order depends on the string hash seed.)
   */
  predicate Enumerates(listing: seq<string>, s: set<string>) {
    |listing| == |s| && (forall x | x in listing :: x in s) && (forall x | x in s :: x in listing)
  }

  /**
   * The checks of `FileReadTool._run` in their order: existence, kind, size,
   * then extension, and only then the read. A file over the ceiling is
   * refused for its size whatever its extension, and never read.
   */
  function CheckedRead(target: FileTarget): (r: Result<string, Refusal>)
    ensures r == Err(NotFound) <==> target.Missing?
    ensures r == Err(NotAFile) <==> target.NotRegularFile?
    ensures r == Err(TooLargeFile) <==> target.RegularFile? && TooLarge(target.size)
    ensures (r.Err? && r.error.TypeNotAllowed?) <==>
      target.RegularFile? && !TooLarge(target.size) && !HasAllowedSuffix(Name(target.resolved))
    ensures r.Err? && r.error.TypeNotAllowed? ==> r.error.suffix == Suffix(Name(target.resolved))
    ensures r.Ok? <==>
      target.RegularFile? && !TooLarge(target.size) && HasAllowedSuffix(Name(target.resolved))
      && target.read.Content?
    ensures r.Ok? ==> r.value == target.read.text
  {
    match target
    case Missing => Err(NotFound)
    case NotRegularFile => Err(NotAFile)
    case RegularFile(resolved, size, read) =>
      if TooLarge(size) then Err(TooLargeFile)
      else if !HasAllowedSuffix(Name(resolved)) then Err(TypeNotAllowed(Suffix(Name(resolved))))
      else match read
        case Content(text) => Ok(text)
        case Failed(error) => Err(ReadFailed(error))
  }

  /** The text `FileReadTool._run` returns for a refusal. */
  function RefusalMessage(filePath: string, refusal: Refusal, listing: seq<string>): string {
    match refusal
    case NotFound => NotFoundMessage(filePath)
    case NotAFile => "Error: Path '" + filePath + "' is not a file."
    case TooLargeFile => "Error: File '" + filePath + "' is too large (max 10MB allowed)."
    case TypeNotAllowed(suffix) =>
      "Error: File type '" + suffix + "' not allowed. Allowed types: " + Join(", ", listing)
    case ReadFailed(ReadError(kind, detail)) =>
      match kind
      case FileVanished => NotFoundMessage(filePath)
      case PermissionDenied => "Error: Permission denied accessing file '" + filePath + "'."
      case DecodeFailure =>
        "Error: Unable to decode file '" + filePath + "'. Please ensure it's a text file with UTF-8 encoding."
      case OsFailure => "Error: Operating system error accessing file '" + filePath + "': " + detail
      case OtherFailure => "An unexpected error occurred while reading the file: " + detail
  }

  function NotFoundMessage(filePath: string): string {
    "Error: File not found at path '" + filePath + "'."
  }

  /** `FileReadTool._run`: the file's text, or the message for the first check it fails. */
  function FileRead(filePath: string, target: FileTarget, listing: seq<string>): (r: string)
    requires Enumerates(listing, AllowedExtensions)
  {
    match CheckedRead(target)
    case Ok(text) => text
    case Err(refusal) => RefusalMessage(filePath, refusal, listing)
  }

  /** A refused extension is reported together with every allowed one. */
  lemma TypeRefusalListsAllowed(filePath: string, target: FileTarget, listing: seq<string>, ext: string)
    requires Enumerates(listing, AllowedExtensions)
    requires target.RegularFile? && !TooLarge(target.size) && !HasAllowedSuffix(Name(target.resolved))
    requires ext in AllowedExtensions
    ensures StartsWith(FileRead(filePath, target, listing), "Error: File type '")
    ensures Contains(FileRead(filePath, target, listing), ext)
  {
    var joined := Join(", ", listing);
    var opening := "Error: File type '";
    var head := opening + Suffix(Name(target.resolved)) + "' not allowed. Allowed types: ";
    assert FileRead(filePath, target, listing) == head + joined;
    assert StartsWith(head, opening);
    JoinHoldsParts(", ", listing);
    ContainedBehindPrefix(head, joined, ext);
    StartsWithExtended(head, joined, opening);
  }

  /** Size comes before type: an oversize file of a refused type is reported as too large. */
  lemma SizeCheckedBeforeType(filePath: string, size: nat, read: ReadOutcome, listing: seq<string>)
    requires Enumerates(listing, AllowedExtensions)
    requires TooLarge(size)
    ensures FileRead(filePath, RegularFile("/kb/photo.png", size, read), listing)
         == "Error: File '" + filePath + "' is too large (max 10MB allowed)."
  {
  }

  // ---------------------------------------------------------------------
  // FolderReadTool

  /** One entry of the folder's `glob('*')`. */
  datatype DirEntry = DirEntry(path: string, isFile: bool, size: nat, read: ReadOutcome)

  /** What the file system says about the folder to read. */
  datatype FolderTarget = FolderMissing | NotAFolder | Folder(entries: seq<DirEntry>)

  /** The folder to read: the one given, unless it is absent or empty. */
  function FolderToScan(folderPath: Option<string>, defaultFolder: string): string {
    if folderPath.Some? && folderPath.value != "" then folderPath.value else defaultFolder
  }

  predicate Eligible(e: DirEntry) {
    ScanAccepts(e.path, e.isFile)
  }

  /** The piece an eligible entry contributes: a skip note, its text, or its read error. */
  function FolderPart(e: DirEntry): string {
    if TooLarge(e.size) then "File '" + Name(e.path) + "' skipped: too large (max 10MB allowed)."
    else match e.read
      case Content(text) => "=== FILE: " + Name(e.path) + " ===\n" + text + "\n"
      case Failed(error) => "Error reading file '" + Name(e.path) + "': " + error.detail
  }

  /** How many entries `keep` accepts. */
  function CountKept(entries: seq<DirEntry>, keep: DirEntry -> bool): (n: nat)
    ensures n <= |entries|
    decreases |entries|
  {
    if entries == [] then 0
    else CountKept(entries[..|entries| - 1], keep) + if keep(entries[|entries| - 1]) then 1 else 0
  }

  /** The pieces of the entries `keep` accepts, in the entries' order. */
  function Pieces(entries: seq<DirEntry>, keep: DirEntry -> bool, piece: DirEntry -> string): (parts: seq<string>)
    ensures |parts| == CountKept(entries, keep)
    ensures parts == [] <==> forall k | 0 <= k < |entries| :: !keep(entries[k])
    decreases |entries|
  {
    if entries == [] then []
    else
      var init := entries[..|entries| - 1];
      var e := entries[|entries| - 1];
      assert forall k | 0 <= k < |init| :: init[k] == entries[k];
      Pieces(init, keep, piece) + if keep(e) then [piece(e)] else []
  }

  /** The accepted entry at position k gives the piece after those of the accepted entries before it. */
  lemma {:induction false} PiecesInOrder(entries: seq<DirEntry>, keep: DirEntry -> bool, piece: DirEntry -> string, k: nat)
    requires k < |entries| && keep(entries[k])
    ensures CountKept(entries[..k], keep) < |Pieces(entries, keep, piece)|
    ensures Pieces(entries, keep, piece)[CountKept(entries[..k], keep)] == piece(entries[k])
    decreases |entries|
  {
    var init := entries[..|entries| - 1];
    if k == |entries| - 1 {
      assert entries[..k] == init;
    } else {
      PiecesInOrder(init, keep, piece, k);
      assert init[..k] == entries[..k] && init[k] == entries[k];
    }
  }

  /** An accepted entry before position j is counted among the entries before j. */
  lemma {:induction false} CountGrows(entries: seq<DirEntry>, keep: DirEntry -> bool, k: nat, j: nat)
    requires k < j <= |entries| && keep(entries[k])
    ensures CountKept(entries[..k], keep) < CountKept(entries[..j], keep)
    decreases j - k
  {
    var pre := entries[..j];
    assert pre[..j - 1] == entries[..j - 1];
    if j - 1 > k {
      CountGrows(entries, keep, k, j - 1);
    }
  }

  /**
   * The pieces `FolderReadTool` collects, in order: one per eligible entry
   * and none for the others, so there are none exactly when no entry is
   * eligible.
   */
  function FolderParts(entries: seq<DirEntry>): (parts: seq<string>)
    ensures |parts| == CountKept(entries, Eligible)
    ensures parts == [] <==> forall k | 0 <= k < |entries| :: !Eligible(entries[k])
  {
    Pieces(entries, Eligible, FolderPart)
  }

  /**
   * The eligible entry at position k contributes its own piece, right after
   * the pieces of the eligible entries before it.
   */
  lemma FolderPartsInOrder(entries: seq<DirEntry>, k: nat)
    requires k < |entries| && Eligible(entries[k])
    ensures CountKept(entries[..k], Eligible) < |FolderParts(entries)|
    ensures FolderParts(entries)[CountKept(entries[..k], Eligible)] == FolderPart(entries[k])
  {
    PiecesInOrder(entries, Eligible, FolderPart, k);
  }

  /**
   * An oversize eligible entry, wherever it stands in the folder, contributes
   * the skip note in its place, and every eligible entry after it still
   * contributes its own piece: the skip does not end the walk.
   */
  lemma OversizeIsSkipped(entries: seq<DirEntry>, k: nat)
    requires k < |entries| && Eligible(entries[k]) && TooLarge(entries[k].size)
    ensures var parts := FolderParts(entries);
      && CountKept(entries[..k], Eligible) < |parts|
      && parts[CountKept(entries[..k], Eligible)]
           == "File '" + Name(entries[k].path) + "' skipped: too large (max 10MB allowed)."
      && forall j | k < j < |entries| && Eligible(entries[j]) ::
           && CountKept(entries[..k], Eligible) < CountKept(entries[..j], Eligible) < |parts|
           && parts[CountKept(entries[..j], Eligible)] == FolderPart(entries[j])
  {
    PiecesInOrder(entries, Eligible, FolderPart, k);
    forall j | k < j < |entries| && Eligible(entries[j])
      ensures CountKept(entries[..k], Eligible) < CountKept(entries[..j], Eligible) < |FolderParts(entries)|
      ensures FolderParts(entries)[CountKept(entries[..j], Eligible)] == FolderPart(entries[j])
    {
      CountGrows(entries, Eligible, k, j);
      PiecesInOrder(entries, Eligible, FolderPart, j);
    }
  }

  function FolderMissingMessage(folder: string): string {
    "Error: Folder not found at path '" + folder + "'."
  }

  function NotAFolderMessage(folder: string): string {
    "Error: Path '" + folder + "' is not a directory."
  }

  function NoReadableFilesMessage(folder: string, listing: seq<string>): string {
    "No readable files found in folder '" + folder + "'. Allowed extensions: " + Join(", ", listing)
  }

  /**
   * `FolderReadTool._run`: walks the entries, skipping ineligible ones and
   * noting oversize ones without reading them, then joins the pieces with
   * newlines; with no pieces it says so and lists the allowed extensions.
   */
  method FolderRead(folderPath: Option<string>, defaultFolder: string, target: FolderTarget,
                    listing: seq<string>) returns (r: string)
    requires Enumerates(listing, AllowedExtensions)
    ensures var folder := FolderToScan(folderPath, defaultFolder);
      && (target.FolderMissing? ==> r == FolderMissingMessage(folder))
      && (target.NotAFolder? ==> r == NotAFolderMessage(folder))
      && (target.Folder? && FolderParts(target.entries) == [] ==> r == NoReadableFilesMessage(folder, listing))
      && (target.Folder? && FolderParts(target.entries) != [] ==> r == Join("\n", FolderParts(target.entries)))
  {
    var folder := FolderToScan(folderPath, defaultFolder);
    if target.FolderMissing? {
      return FolderMissingMessage(folder);
    }
    if target.NotAFolder? {
      return NotAFolderMessage(folder);
    }
    var entries := target.entries;
    var filesContent: seq<string> := [];
    for i := 0 to |entries|
      invariant filesContent == FolderParts(entries[..i])
    {
      assert entries[..i + 1][..i] == entries[..i];
      var e := entries[i];
      if !Eligible(e) {
        continue;
      }
      if TooLarge(e.size) {
        filesContent := filesContent + ["File '" + Name(e.path) + "' skipped: too large (max 10MB allowed)."];
        continue;
      }
      match e.read {
        case Content(text) =>
          filesContent := filesContent + ["=== FILE: " + Name(e.path) + " ===\n" + text + "\n"];
        case Failed(error) =>
          filesContent := filesContent + ["Error reading file '" + Name(e.path) + "': " + error.detail];
      }
    }
    assert entries[..|entries|] == entries;
    if filesContent == [] {
      return NoReadableFilesMessage(folder, listing);
    }
    return Join("\n", filesContent);
  }

  // ---------------------------------------------------------------------
  // PerplexityTool

  const MissingKeyError: string := "Error: PERPLEXITY_API_KEY environment variable not set."
  const BadKeyError: string := "Error: Invalid PERPLEXITY_API_KEY format. Please check your API key."

  /** The request body and headers the tool would send. */
  datatype PerplexityRequest = PerplexityRequest(model: string, content: string, maxTokens: nat, authorization: string)

  /** The key's basic shape: a known prefix and at least 20 characters. */
  predicate WellFormedKey(key: string) {
    (StartsWith(key, "pplx-") || StartsWith(key, "sk-")) && |key| >= 20
  }

  /**
   * The checks `PerplexityTool._run` makes before calling out, in order:
   * the query (blank, too long), then the key (unset or empty, malformed).
   * A request is built exactly when all pass, for the stripped query.
   */
  function PrepareRequest(query: string, apiKey: Option<string>): (r: Result<PerplexityRequest, string>)
    ensures CheckQuery(query).Some? ==> r == Err(CheckQuery(query).value)
    ensures CheckQuery(query).None? && (apiKey.None? || apiKey.value == "") ==> r == Err(MissingKeyError)
    ensures CheckQuery(query).None? && apiKey.Some? && apiKey.value != "" && !WellFormedKey(apiKey.value) ==>
      r == Err(BadKeyError)
    ensures r.Ok? <==> CheckQuery(query).None? && apiKey.Some? && WellFormedKey(apiKey.value)
    ensures r.Ok? ==>
      && r.value.content == Strip(query) && 1 <= |r.value.content| <= MaxQueryLength
      && r.value.authorization == "Bearer " + apiKey.value
  {
    match CheckQuery(query)
    case Some(error) => Err(error)
    case None =>
      if apiKey.None? || apiKey.value == "" then Err(MissingKeyError)
      else if !WellFormedKey(apiKey.value) then Err(BadKeyError)
      else Ok(PerplexityRequest("sonar-deep-research", Strip(query), 4000, "Bearer " + apiKey.value))
  }

  /** A key with a good prefix but too short is refused as malformed. */
  lemma ShortKeyRefused()
    ensures PrepareRequest("event trends", Some("pplx-123")) == Err(BadKeyError)
  {
    assert !AllSpace("event trends") by { assert !IsSpace("event trends"[0]); }
  }

  /** A key of twenty characters with the "sk-" prefix passes. */
  lemma TwentyCharacterKeyAccepted()
    ensures PrepareRequest("event trends", Some("sk-12345678901234567")).Ok?
  {
    var key := "sk-12345678901234567";
    assert !AllSpace("event trends") by { assert !IsSpace("event trends"[0]); }
    assert key[..3] == "sk-";
    KeyAccepted("event trends", key);
  }

  /** An accepted query with a well-formed key always gives a request. */
  lemma KeyAccepted(query: string, key: string)
    requires CheckQuery(query).None? && WellFormedKey(key)
    ensures PrepareRequest(query, Some(key)).Ok?
  {
  }
}

=== FILE: knowledge_index.dfy ===
/**
 * The state of the knowledge index as values, and what one call of
 * `RAGManager.update_file_if_changed` does to it.
 *
 * The index has two stores: the `file_metadata` table (path -> hash and chunk
 * count) and the vector collection (chunk id -> document, embedding and the
 * metadata `source` and `chunk_index`). SHA-256, the UTF-8 decoding, the text
 * splitter and the embedding provider are parameters (`Services`); the file
 * system is a map from the paths that exist to their bytes. The hash is taken
 * over the bytes and the splitter is given the decoded text.
 */
module KnowledgeIndex {
  import opened Wrappers
  import opened Text
  import opened Eligibility
  import opened Embedding

  /** A row of `file_metadata`. */
  datatype FileRecord = FileRecord(fileHash: string, chunkCount: nat)

  /** An entry of the vector collection. */
  datatype Chunk = Chunk(document: string, embedding: Vector, source: string, chunkIndex: nat)

  type Metadata = map<string, FileRecord>
  type Collection = map<string, Chunk>

  /** A file's raw contents. */
  type Bytes = seq<bv8>

  /** The paths that exist, with their contents. */
  type FileSystem = map<string, Bytes>

  /**
   * What the index is built with: whether the optional vector-store
   * dependencies imported (`HAS_RAG_DEPS`), the hash of a file's bytes,
   * the decoding of those bytes to text (UTF-8, undecodable bytes replaced,
   * universal newlines), the text splitter and the embedding provider.
   */
  datatype Services = Services(
    hasRagDeps: bool,
    fileHash: Bytes -> string,
    decode: Bytes -> string,
    split: string -> seq<string>,
    embed: Provider)

  datatype Index = Index(metadata: Metadata, collection: Collection)

  /** What `update_file_if_changed` returns, with the index it leaves. */
  datatype UpdateOutcome = UpdateOutcome(updated: bool, index: Index)

  /** The id `"{path}_{i}"` of the i-th chunk of a file. */
  function ChunkId(path: string, i: nat): string {
    path + "_" + NatToString(i)
  }

  /** The last '_' of a chunk id is the one after the path: only digits follow it. */
  lemma ChunkIdSeparator(p: string, i: nat)
    ensures LastIndexOf(ChunkId(p, i), '_') == |p|
  {
    var a := ChunkId(p, i);
    forall k | |p| < k < |a| ensures a[k] != '_' {
      assert a[k] == NatToString(i)[k - |p| - 1];
    }
    LastIndexOfIs(a, '_', |p|);
  }

  /**
   * Chunk ids never collide: the text after a path's '_' is all digits, so a
   * longer path (which would bring another '_') cannot produce the same id.
   */
  lemma {:induction false} ChunkIdInjective(p: string, i: nat, q: string, j: nat)
    ensures ChunkId(p, i) == ChunkId(q, j) ==> p == q && i == j
  {
    var a, b := ChunkId(p, i), ChunkId(q, j);
    if a == b {
      ChunkIdSeparator(p, i);
      ChunkIdSeparator(q, j);
      assert p == a[..|p|] && q == b[..|q|];
      assert NatToString(i) == a[|p| + 1..] && NatToString(j) == b[|q| + 1..];
      NatToStringInjective(i, j);
    }
  }

  lemma ChunkIdsInjective()
    ensures forall p, i, q, j :: ChunkId(p, i) == ChunkId(q, j) ==> p == q && i == j
  {
    forall p, i, q, j ensures ChunkId(p, i) == ChunkId(q, j) ==> p == q && i == j {
      ChunkIdInjective(p, i, q, j);
    }
  }

  /** Every chunk is stored under the id its source and index give it. */
  ghost predicate WellKeyed(c: Collection) {
    forall id | id in c :: id == ChunkId(c[id].source, c[id].chunkIndex)
  }

  /** The per-path states of change detection. */
  datatype Change = Missing | New | Changed | Unchanged

  /**
   * Where the path stands: gone from disk, never recorded, recorded under
   * another hash of its bytes, or recorded under the hash it has now.
   */
  function DetectChange(metadata: Metadata, fs: FileSystem, fileHash: Bytes -> string, path: string): (c: Change)
    ensures c == Missing <==> path !in fs
    ensures c == New <==> path in fs && path !in metadata
    ensures c == Unchanged <==> path in fs && path in metadata && metadata[path].fileHash == fileHash(fs[path])
  {
    if path !in fs then Missing
    else if path !in metadata then New
    else if metadata[path].fileHash != fileHash(fs[path]) then Changed
    else Unchanged
  }

  /** `file_needs_update`. */
  function NeedsUpdate(metadata: Metadata, fs: FileSystem, fileHash: Bytes -> string, path: string): (r: bool)
    ensures path !in fs ==> !r
    ensures path in fs && path !in metadata ==> r
    ensures path in fs && path in metadata ==> (r <==> metadata[path].fileHash != fileHash(fs[path]))
  {
    var change := DetectChange(metadata, fs, fileHash, path);
    change.New? || change.Changed?
  }

  /** `_remove_file_from_rag` on a collection: every chunk whose source is `path` goes. */
  function RemoveSource(c: Collection, path: string): (r: Collection)
    ensures forall id | id in r :: id in c && r[id] == c[id] && c[id].source != path
    ensures forall id | id in c && c[id].source != path :: id in r
  {
    map id | id in c && c[id].source != path :: c[id]
  }

  /** The chunks one ingestion of `path` adds: the i-th text under id `"{path}_{i}"`. */
  function Generation(path: string, texts: seq<string>, embeddings: seq<Vector>): (g: Collection)
    requires |embeddings| == |texts|
    ensures forall i | 0 <= i < |texts| ::
      ChunkId(path, i) in g && g[ChunkId(path, i)] == Chunk(texts[i], embeddings[i], path, i)
    ensures forall id | id in g :: exists i :: 0 <= i < |texts| && id == ChunkId(path, i)
  {
    ChunkIdsInjective();
    map i | 0 <= i < |texts| :: ChunkId(path, i) := Chunk(texts[i], embeddings[i], path, i)
  }

  /** A generation is stored under the ids its chunks' source and index give. */
  lemma GenerationWellKeyed(path: string, texts: seq<string>, embeddings: seq<Vector>)
    requires |embeddings| == |texts|
    ensures WellKeyed(Generation(path, texts, embeddings))
  {
    var g := Generation(path, texts, embeddings);
    forall id | id in g ensures id == ChunkId(g[id].source, g[id].chunkIndex) {
      var i :| 0 <= i < |texts| && id == ChunkId(path, i);
    }
  }

  /** The collection's `add`: an id already present keeps its entry. */
  function AddMissing(c: Collection, g: Collection): (r: Collection)
    ensures r.Keys == c.Keys + g.Keys
    ensures forall id | id in c :: r[id] == c[id]
    ensures forall id | id in g && id !in c :: r[id] == g[id]
  {
    map id | id in c.Keys + g.Keys :: if id in c then c[id] else g[id]
  }

  /**
   * `update_file_if_changed`, step by step: decide; delete the path's chunks;
   * split; stop with False on no chunks; embed; add the new chunks when the
   * vector store is present; write the metadata row.
   */
  function Update(svc: Services, idx: Index, fs: FileSystem, path: string): (out: UpdateOutcome)
    ensures out.updated <==>
      NeedsUpdate(idx.metadata, fs, svc.fileHash, path) && svc.split(svc.decode(fs[path])) != []
    ensures !NeedsUpdate(idx.metadata, fs, svc.fileHash, path) ==> out.index == idx
    ensures out.index.metadata.Keys == idx.metadata.Keys + if out.updated then {path} else {}
    ensures !svc.hasRagDeps ==> out.index.collection == idx.collection
  {
    if !NeedsUpdate(idx.metadata, fs, svc.fileHash, path) then UpdateOutcome(false, idx)
    else
      var content := svc.decode(fs[path]);
      var cleared := if svc.hasRagDeps then RemoveSource(idx.collection, path) else idx.collection;
      var texts := svc.split(content);
      if texts == [] then UpdateOutcome(false, Index(idx.metadata, cleared))
      else
        var embeddings := Embeddings(svc.embed, texts);
        var stored := if svc.hasRagDeps then AddMissing(cleared, Generation(path, texts, embeddings)) else cleared;
        UpdateOutcome(true, Index(idx.metadata[path := FileRecord(svc.fileHash(fs[path]), |texts|)], stored))
  }

  /** The chunks of a well-keyed collection that belong to other paths never share an id with `path`'s. */
  lemma ClearedAvoidsGeneration(c: Collection, path: string, n: nat)
    requires WellKeyed(c)
    ensures forall i | 0 <= i < n :: ChunkId(path, i) !in RemoveSource(c, path)
  {
    forall i | 0 <= i < n ensures ChunkId(path, i) !in RemoveSource(c, path) {
      if ChunkId(path, i) in RemoveSource(c, path) {
        var ch := c[ChunkId(path, i)];
        ChunkIdInjective(path, i, ch.source, ch.chunkIndex);
      }
    }
  }

  /**
   * Replace by source: after a successful update with the vector store
   * present, the chunks whose source is `path` are exactly the new ones, the
   * i-th under `"{path}_{i}"` with `chunk_index` i, and every chunk of another
   * source is untouched.
   */
  lemma {:induction false} UpdateReplacesSource(svc: Services, idx: Index, fs: FileSystem, path: string)
    requires WellKeyed(idx.collection) && svc.hasRagDeps
    requires Update(svc, idx, fs, path).updated
    ensures path in fs
    ensures var c' := Update(svc, idx, fs, path).index.collection;
            var texts := svc.split(svc.decode(fs[path]));
            var embeddings := Embeddings(svc.embed, texts);
            && (forall i | 0 <= i < |texts| ::
                  ChunkId(path, i) in c' && c'[ChunkId(path, i)] == Chunk(texts[i], embeddings[i], path, i))
            && (forall id | id in c' && c'[id].source == path ::
                  exists i :: 0 <= i < |texts| && id == ChunkId(path, i))
            && (forall id | id in idx.collection && idx.collection[id].source != path ::
                  id in c' && c'[id] == idx.collection[id])
            && (forall id | id in c' && c'[id].source != path :: id in idx.collection)
  {
    var texts := svc.split(svc.decode(fs[path]));
    var embeddings := Embeddings(svc.embed, texts);
    var cleared := RemoveSource(idx.collection, path);
    var g := Generation(path, texts, embeddings);
    var c' := Update(svc, idx, fs, path).index.collection;
    assert c' == AddMissing(cleared, g);
    ClearedAvoidsGeneration(idx.collection, path, |texts|);
  }

  /** Every update keeps the collection well keyed. */
  lemma UpdatePreservesWellKeyed(svc: Services, idx: Index, fs: FileSystem, path: string)
    requires WellKeyed(idx.collection)
    ensures WellKeyed(Update(svc, idx, fs, path).index.collection)
  {
    if NeedsUpdate(idx.metadata, fs, svc.fileHash, path) && svc.hasRagDeps {
      var texts := svc.split(svc.decode(fs[path]));
      if texts != [] {
        var g := Generation(path, texts, Embeddings(svc.embed, texts));
        var c' := Update(svc, idx, fs, path).index.collection;
        forall id | id in c' ensures id == ChunkId(c'[id].source, c'[id].chunkIndex) {
          if id !in RemoveSource(idx.collection, path) {
            var i :| 0 <= i < |texts| && id == ChunkId(path, i);
          }
        }
      }
    }
  }

  /**
   * After a successful update the metadata row holds the content's hash and
   * the number of chunks (with or without the vector store), no other row
   * changes, and the path no longer needs an update.
   */
  lemma UpdateRecordsFile(svc: Services, idx: Index, fs: FileSystem, path: string)
    requires Update(svc, idx, fs, path).updated
    ensures path in fs
    ensures var m' := Update(svc, idx, fs, path).index.metadata;
            && m' == idx.metadata[path := FileRecord(svc.fileHash(fs[path]), |svc.split(svc.decode(fs[path]))|)]
            && !NeedsUpdate(m', fs, svc.fileHash, path)
  {
  }

  /**
   * A file that splits into no chunks: the old chunks are already deleted
   * and no other source's chunk is touched, the call returns False, the metadata row is not written, and so the
   * file still needs an update afterwards.
   */
  lemma EmptySplitKeepsNeedingUpdate(svc: Services, idx: Index, fs: FileSystem, path: string)
    requires NeedsUpdate(idx.metadata, fs, svc.fileHash, path)
    requires svc.split(svc.decode(fs[path])) == []
    ensures var out := Update(svc, idx, fs, path);
            && !out.updated
            && out.index.metadata == idx.metadata
            && NeedsUpdate(out.index.metadata, fs, svc.fileHash, path)
            && (svc.hasRagDeps ==> forall id | id in out.index.collection :: out.index.collection[id].source != path)
            && out.index.collection == if svc.hasRagDeps then RemoveSource(idx.collection, path) else idx.collection
  {
  }

  /**
   * Updating twice in a row is updating once: the second call returns False
   * and changes nothing, whichever way the first call went.
   */
  lemma {:induction false} UpdateIdempotent(svc: Services, idx: Index, fs: FileSystem, path: string)
    ensures var first := Update(svc, idx, fs, path).index;
            Update(svc, first, fs, path) == UpdateOutcome(false, first)
  {
    var out := Update(svc, idx, fs, path);
    if NeedsUpdate(idx.metadata, fs, svc.fileHash, path) && svc.split(svc.decode(fs[path])) == [] && svc.hasRagDeps {
      var cleared := out.index.collection;
      assert RemoveSource(cleared, path) == cleared;
    }
  }

  /** An update of `q` never makes another file, or `q` itself, need an update that did not before. */
  lemma UpdateKeepsCurrent(svc: Services, idx: Index, fs: FileSystem, q: string, p: string)
    requires !NeedsUpdate(idx.metadata, fs, svc.fileHash, p)
    ensures !NeedsUpdate(Update(svc, idx, fs, q).index.metadata, fs, svc.fileHash, p)
  {
  }

  /** A directory entry from `rglob`. */
  datatype ScanEntry = ScanEntry(path: string, isFile: bool)

  /** `_initial_scan`: the update applied, in order, to every entry the scan filter accepts. */
  function Scan(svc: Services, idx: Index, fs: FileSystem, entries: seq<ScanEntry>): (r: Index)
    ensures idx.metadata.Keys <= r.metadata.Keys
    ensures !svc.hasRagDeps ==> r.collection == idx.collection
    decreases |entries|
  {
    if entries == [] then idx
    else
      var prev := Scan(svc, idx, fs, entries[..|entries| - 1]);
      var e := entries[|entries| - 1];
      if ScanAccepts(e.path, e.isFile) then Update(svc, prev, fs, e.path).index else prev
  }

  /**
   * Change detection looks at bytes, not text: a file rewritten with bytes
   * that decode to the same text (other line endings, or other undecodable
   * bytes, both read back as U+FFFD) still counts as changed and is
   * re-indexed.
   */
  lemma ReencodedFileIsReindexed(svc: Services, idx: Index, fs: FileSystem, path: string, before: Bytes)
    requires path in fs && path in idx.metadata && idx.metadata[path].fileHash == svc.fileHash(before)
    requires svc.decode(fs[path]) == svc.decode(before) && svc.fileHash(fs[path]) != svc.fileHash(before)
    requires svc.split(svc.decode(before)) != []
    ensures Update(svc, idx, fs, path).updated
    ensures Update(svc, idx, fs, path).index.metadata[path].fileHash == svc.fileHash(fs[path])
  {
  }

  /** A file the scan should leave current: eligible, existing, and splitting into chunks. */
  predicate Indexable(svc: Services, fs: FileSystem, e: ScanEntry) {
    ScanAccepts(e.path, e.isFile) && e.path in fs && svc.split(svc.decode(fs[e.path])) != []
  }

  /** Updating a file that exists and splits into chunks leaves it current. */
  lemma UpdateMakesCurrent(svc: Services, idx: Index, fs: FileSystem, p: string)
    requires p in fs && svc.split(svc.decode(fs[p])) != []
    ensures !NeedsUpdate(Update(svc, idx, fs, p).index.metadata, fs, svc.fileHash, p)
  {
  }

  /** After the initial scan, every indexable entry is up to date. */
  lemma {:induction false} ScanLeavesFilesCurrent(svc: Services, idx: Index, fs: FileSystem, entries: seq<ScanEntry>)
    ensures forall k | 0 <= k < |entries| && Indexable(svc, fs, entries[k]) ::
      !NeedsUpdate(Scan(svc, idx, fs, entries).metadata, fs, svc.fileHash, entries[k].path)
    decreases |entries|
  {
    if entries != [] {
      var init := entries[..|entries| - 1];
      var last := entries[|entries| - 1];
      var prev := Scan(svc, idx, fs, init);
      var after := Scan(svc, idx, fs, entries);
      ScanLeavesFilesCurrent(svc, idx, fs, init);
      forall k | 0 <= k < |entries| && Indexable(svc, fs, entries[k])
        ensures !NeedsUpdate(after.metadata, fs, svc.fileHash, entries[k].path)
      {
        var e := entries[k];
        if k == |entries| - 1 {
          UpdateMakesCurrent(svc, prev, fs, e.path);
        } else {
          assert e == init[k];
          if ScanAccepts(last.path, last.isFile) {
            UpdateKeepsCurrent(svc, prev, fs, last.path, e.path);
          }
        }
      }
    }
  }

  /** The scan writes metadata only for the paths of entries it accepts. */
  lemma {:induction false} ScanTouchesOnlyScannedPaths(svc: Services, idx: Index, fs: FileSystem, entries: seq<ScanEntry>, p: string)
    requires forall k | 0 <= k < |entries| :: ScanAccepts(entries[k].path, entries[k].isFile) ==> entries[k].path != p
    ensures p in Scan(svc, idx, fs, entries).metadata <==> p in idx.metadata
    ensures p in idx.metadata ==> Scan(svc, idx, fs, entries).metadata[p] == idx.metadata[p]
    decreases |entries|
  {
    if entries != [] {
      ScanTouchesOnlyScannedPaths(svc, idx, fs, entries[..|entries| - 1], p);
    }
  }
}

=== FILE: knowledge_tool.dfy ===
/**
 * `CompanyKnowledgeBaseTool`: owns a `RAGManager`, indexes the knowledge
 * folder once when it is built, and answers queries from the index or, when
 * the vector store is missing or finds nothing, from the canned fallback.
 */
module KnowledgeTool {
  import opened Wrappers
  import opened Text
  import opened Paths
  import opened Eligibility
  import opened KnowledgeIndex
  import opened Rag
  import opened QueryInput
  import opened Fallback

  /** How many results `_run` asks the index for. */
  const ResultCount: nat := 5

  function ResultsHeader(query: string): string {
    "Knowledge Base Search Results for: '" + query + "'\n\n"
  }

  /**
   * One numbered result: the file name of its source, its text and its
   * relevance (one minus the distance, rendered by `relevance`).
   */
  function ResultEntry(number: nat, hit: Hit, relevance: real -> string): string {
    "Result " + NatToString(number) + " (from " + Name(hit.source) + "):\n"
    + hit.content + "\n"
    + "Relevance: " + relevance(1.0 - hit.distance) + "\n\n"
  }

  /** The entries for `hits`, numbered from 1 in the order the index returned them. */
  function ResultEntries(hits: seq<Hit>, relevance: real -> string): string
    decreases |hits|
  {
    if hits == [] then ""
    else ResultEntries(hits[..|hits| - 1], relevance) + ResultEntry(|hits|, hits[|hits| - 1], relevance)
  }

  /**
   * Hit `k` is rendered as result number k + 1, right after the entries of
   * the hits before it, and the listing starts with those entries.
   */
  lemma {:induction false} EntryPlacement(hits: seq<Hit>, relevance: real -> string, k: nat)
    requires k < |hits|
    ensures StartsWith(ResultEntries(hits, relevance),
                       ResultEntries(hits[..k], relevance) + ResultEntry(k + 1, hits[k], relevance))
    decreases |hits|
  {
    var init := hits[..|hits| - 1];
    var whole := ResultEntries(hits, relevance);
    if k == |hits| - 1 {
      assert hits[..k] == init;
      assert whole == ResultEntries(hits[..k], relevance) + ResultEntry(k + 1, hits[k], relevance);
    } else {
      EntryPlacement(init, relevance, k);
      assert init[..k] == hits[..k] && init[k] == hits[k];
      var p := ResultEntries(hits[..k], relevance) + ResultEntry(k + 1, hits[k], relevance);
      var a := ResultEntries(init, relevance);
      assert whole == a + ResultEntry(|hits|, hits[|hits| - 1], relevance);
      assert whole[..|p|] == a[..|p|];
    }
  }

  /** The entries of one more hit are those before it followed by its own. */
  lemma EntriesStep(hits: seq<Hit>, relevance: real -> string, i: nat)
    requires i < |hits|
    ensures ResultEntries(hits[..i + 1], relevance) == ResultEntries(hits[..i], relevance) + ResultEntry(i + 1, hits[i], relevance)
  {
    var prefix := hits[..i + 1];
    assert prefix[..i] == hits[..i] && prefix[i] == hits[i];
  }

  /** Distinct hits get distinct numbers: the numbers 1..n label the entries. */
  lemma EntryNumbersDistinct(j: nat, k: nat)
    requires j != k
    ensures NatToString(j + 1) != NatToString(k + 1)
  {
    NatToStringInjective(j + 1, k + 1);
  }

  class CompanyKnowledgeBaseTool {
    const ragManager: RAGManager
    /** The `:.3f` rendering of a relevance score. */
    const relevance: real -> string

    /**
     * Opens the index from its stored state and runs the initial scan over
     * the knowledge folder's entries.
     */
    constructor (svc: Services, search: Search, storedMetadata: Metadata, storedCollection: Collection,
                 relevance: real -> string, fs: FileSystem, entries: seq<ScanEntry>)
      requires WellKeyed(storedCollection)
      ensures fresh(ragManager) && ragManager.Valid() && this.relevance == relevance
      ensures ragManager.svc == svc && ragManager.search == search
      ensures ragManager.State() ==
        Scan(svc, Index(storedMetadata, if svc.hasRagDeps then storedCollection else map[]), fs, entries)
    {
      ragManager := new RAGManager(svc, search, storedMetadata, storedCollection);
      this.relevance := relevance;
      new;
      InitialScan(fs, entries);
    }

    /** `_initial_scan`: every entry the scan filter accepts is passed, in order, to the update. */
    method InitialScan(fs: FileSystem, entries: seq<ScanEntry>)
      requires ragManager.Valid()
      modifies ragManager
      ensures ragManager.Valid()
      ensures ragManager.State() == Scan(ragManager.svc, old(ragManager.State()), fs, entries)
    {
      for i := 0 to |entries|
        invariant ragManager.Valid()
        invariant ragManager.State() == Scan(ragManager.svc, old(ragManager.State()), fs, entries[..i])
      {
        assert entries[..i + 1][..i] == entries[..i];
        var e := entries[i];
        if ScanAccepts(e.path, e.isFile) {
          var _ := ragManager.UpdateFileIfChanged(fs, e.path);
        }
      }
      assert entries[..|entries|] == entries;
    }

    /**
     * `_run`: validation first (blank, then too long); then the fallback when
     * the vector store is missing or returns nothing; otherwise the header
     * and the numbered results.
     */
    method Run(query: string) returns (response: string)
      ensures AllSpace(query) ==> response == EmptyQueryError
      ensures !AllSpace(query) && |query| > MaxQueryLength ==> response == QueryTooLongError
      ensures CheckQuery(query).None? ==>
        var hits := QueryResults(ragManager.svc, ragManager.search, ragManager.collection, Strip(query), ResultCount);
        && (!ragManager.svc.hasRagDeps || hits == [] ==> response == FallbackSearch(Strip(query)))
        && (ragManager.svc.hasRagDeps && hits != [] ==>
              response == ResultsHeader(Strip(query)) + ResultEntries(hits, relevance))
    {
      var error := CheckQuery(query);
      if error.Some? {
        return error.value;
      }
      if !ragManager.svc.hasRagDeps {
        return FallbackSearch(Strip(query));
      }
      var results := ragManager.Query(Strip(query), ResultCount);
      if results == [] {
        return FallbackSearch(Strip(query));
      }
      response := FormatResults(Strip(query), results);
    }

    /** The loop of `_run` that numbers the results from 1 after the header. */
    method FormatResults(query: string, results: seq<Hit>) returns (response: string)
      ensures response == ResultsHeader(query) + ResultEntries(results, relevance)
    {
      response := ResultsHeader(query);
      for i := 0 to |results|
        invariant response == ResultsHeader(query) + ResultEntries(results[..i], relevance)
      {
        ghost var done := ResultEntries(results[..i], relevance);
        var entry := ResultEntry(i + 1, results[i], relevance);
        EntriesStep(results, relevance, i);
        AppendAssociative(ResultsHeader(query), done, entry);
        response := response + entry;
      }
      assert results[..|results|] == results;
    }
  }
}

=== FILE: paths.dfy ===
/**
 * The parts of `pathlib.PurePosixPath` the tools use: `name` (the last path
 * component) and `suffix` (the name's final extension).
 */
module Paths {
  import opened Text

  /** Index at which the last '/'-separated segment of `p` begins. */
  function SegmentStart(p: string): (i: nat)
    ensures i <= |p|
    ensures i > 0 ==> p[i - 1] == '/'
    ensures forall j | i <= j < |p| :: p[j] != '/'
  {
    if p == [] then 0
    else if p[|p| - 1] == '/' then |p|
    else SegmentStart(p[..|p| - 1])
  }

  /** The segment start is determined by where the last '/' is. */
  lemma SegmentStartIs(p: string, i: nat)
    requires i <= |p| && (i > 0 ==> p[i - 1] == '/')
    requires forall j | i <= j < |p| :: p[j] != '/'
    ensures SegmentStart(p) == i
  {
  }

  /**
   * `PurePosixPath(p).name`: the last component of `p`, where empty and "."
   * components do not count ("a/b/" and "a/b/." both name "b"; "/" names "").
   */
  function Name(p: string): (r: string)
    ensures forall j | 0 <= j < |r| :: r[j] != '/'
    ensures r != "."
    decreases |p|
  {
    var i := SegmentStart(p);
    var seg := p[i..];
    if seg != "" && seg != "." then seg
    else if i == 0 then ""
    else Name(p[..i - 1])
  }

  /**
   * `PurePosixPath.suffix` of a name: from the last dot on, provided that dot
   * is neither the first nor the last character; otherwise "".
   */
  function Suffix(name: string): (r: string)
    ensures r != [] ==> 2 <= |r| < |name| && r[0] == '.' && EndsWith(name, r)
    ensures forall j | 1 <= j < |r| :: r[j] != '.'
  {
    var i := LastIndexOf(name, '.');
    if 0 < i < |name| - 1 then name[i..] else ""
  }

  /** A file extension: a dot followed by at least one character that is neither a dot nor '/'. */
  predicate IsExtension(ext: string) {
    |ext| >= 2 && ext[0] == '.' && forall j | 1 <= j < |ext| :: ext[j] != '.' && ext[j] != '/'
  }

  /** The last segment of a path that ends with an extension starts no later than the extension. */
  lemma SegmentHoldsExtension(p: string, ext: string)
    requires IsExtension(ext) && EndsWith(p, ext)
    ensures SegmentStart(p) <= |p| - |ext|
  {
    var k := |p| - |ext|;
    forall j | k <= j < |p| ensures p[j] != '/' {
      assert p[j] == p[k..][j - k] == ext[j - k];
    }
  }

  /** A name that ends with an extension, and is longer than it, has that extension as its suffix. */
  lemma SuffixOfExtension(name: string, ext: string)
    requires IsExtension(ext) && EndsWith(name, ext) && name != ext
    ensures Suffix(name) == ext
  {
    var d := |name| - |ext|;
    assert |name| != |ext| by {
      assert name[d..] == ext;
    }
    assert forall j | d < j < |name| :: name[j] == name[d..][j - d] == ext[j - d];
    assert name[d] == '.' by { assert name[d..][0] == ext[0]; }
    LastIndexOfIs(name, '.', d);
  }

  /**
   * A path whose text ends with an extension has a name ending with it, and
   * that extension is the name's suffix unless the name is the extension alone.
   */
  lemma EndsWithExtension(p: string, ext: string)
    requires IsExtension(ext) && EndsWith(p, ext)
    ensures EndsWith(Name(p), ext)
    ensures Name(p) != ext ==> Suffix(Name(p)) == ext
  {
    SegmentHoldsExtension(p, ext);
    var seg := p[SegmentStart(p)..];
    assert seg[|seg| - |ext|..] == p[|p| - |ext|..];
    assert seg != "" && seg != "." by {
      assert |seg| >= |ext| >= 2;
    }
    assert Name(p) == seg;
    if seg != ext {
      SuffixOfExtension(seg, ext);
    }
  }
}

=== FILE: query_input.dfy ===
/**
 * The input validation that `CompanyKnowledgeBaseTool._run` and
 * `PerplexityTool._run` both perform before doing anything else.
 */
module QueryInput {
  import opened Wrappers
  import opened Text

  /** Longest query, in characters, either tool accepts. */
  const MaxQueryLength: nat := 500

  const EmptyQueryError: string := "Error: Query cannot be empty."
  const QueryTooLongError: string := "Error: Query too long (max 500 characters)."

  /**
   * The message a query is refused with, if any: emptiness (after
   * stripping) is checked before length, and the length is that of the
   * query as given, surrounding whitespace included.
   */
  function CheckQuery(query: string): (r: Option<string>)
    ensures r == Some(EmptyQueryError) <==> AllSpace(query)
    ensures r == Some(QueryTooLongError) <==> !AllSpace(query) && |query| > MaxQueryLength
    ensures r == None <==> !AllSpace(query) && |query| <= MaxQueryLength
    ensures r.None? ==> 1 <= |Strip(query)| <= MaxQueryLength
  {
    if query == [] || Strip(query) == [] then Some(EmptyQueryError)
    else if |query| > MaxQueryLength then Some(QueryTooLongError)
    else None
  }

  /** A long run of spaces is reported as empty, not as too long. */
  lemma BlankBeforeLength()
    ensures CheckQuery(seq(MaxQueryLength + 1, _ => ' ')) == Some(EmptyQueryError)
  {
    var q := seq(MaxQueryLength + 1, _ => ' ');
    assert forall i | 0 <= i < |q| :: IsSpace(q[i]);
  }

  /** Padding counts towards the limit: a one-letter query padded past it is refused. */
  lemma PaddingCountsTowardsLength()
    ensures CheckQuery(seq(MaxQueryLength, _ => ' ') + "a") == Some(QueryTooLongError)
  {
    var q := seq(MaxQueryLength, _ => ' ') + "a";
    assert q[MaxQueryLength] == 'a' && !IsSpace('a');
  }
}

=== FILE: rag_manager.dfy ===
/**
 * `RAGManager`, the object that owns the metadata table and the vector
 * collection and updates them in place, and `FileChangeHandler`, the watchdog
 * callback that forwards eligible events to it.
 */
module Rag {
  import opened Wrappers
  import opened Eligibility
  import opened Embedding
  import opened KnowledgeIndex

  /** One answer of the store's nearest-neighbour search: a chunk id and its distance. */
  datatype Match = Match(id: string, distance: real)

  /**
   * The store's ranked search, given the query embedding, the collection and
   * the number of results wanted; nearest first.
   */
  type Search = (Vector, Collection, nat) -> seq<Match>

  /** One entry of the list `RAGManager.query` returns. */
  datatype Hit = Hit(content: string, source: string, distance: real)

  /**
   * The hits for the store's matches, in the store's order, for the ids it
   * holds: when it holds every matched id (as the store's own answers always
   * are), exactly one hit per match, showing that match's chunk and distance.
   */
  function HitsOf(c: Collection, matches: seq<Match>): (hits: seq<Hit>)
    ensures |hits| <= |matches|
    ensures forall k | 0 <= k < |hits| :: Stored(c, hits[k])
    ensures (forall k | 0 <= k < |matches| :: matches[k].id in c) ==>
      && |hits| == |matches|
      && forall k | 0 <= k < |hits| ::
           hits[k] == Hit(c[matches[k].id].document, c[matches[k].id].source, matches[k].distance)
    decreases |matches|
  {
    if matches == [] then []
    else
      var m := matches[|matches| - 1];
      var prev := HitsOf(c, matches[..|matches| - 1]);
      if m.id in c then
        prev + [Hit(c[m.id].document, c[m.id].source, m.distance)]
      else prev
  }

  /** The hits of one more match are those before it and then its own, if its id is stored. */
  lemma HitsOfStep(c: Collection, matches: seq<Match>, i: nat)
    requires i < |matches|
    ensures var m := matches[i];
      HitsOf(c, matches[..i + 1]) ==
        HitsOf(c, matches[..i]) + if m.id in c then [Hit(c[m.id].document, c[m.id].source, m.distance)] else []
  {
    assert matches[..i + 1][..i] == matches[..i];
  }

  /** `hit` shows the document and source of a chunk the collection holds. */
  predicate Stored(c: Collection, hit: Hit) {
    exists id | id in c :: hit.content == c[id].document && hit.source == c[id].source
  }

  /** `RAGManager.query`: nothing without the vector store, else the query text's embedding searched. */
  function QueryResults(svc: Services, search: Search, c: Collection, text: string, n: nat): (hits: seq<Hit>)
    ensures !svc.hasRagDeps ==> hits == []
    ensures forall k | 0 <= k < |hits| :: Stored(c, hits[k])
  {
    if !svc.hasRagDeps then []
    else HitsOf(c, search(Embeddings(svc.embed, [text])[0], c, n))
  }

  /**
   * Right after a successful update of `path`, no query can return a chunk of
   * an older generation of that file: every hit sourced from `path` carries
   * one of the texts the new content split into.
   */
  lemma QueryAfterUpdateSeesNewGeneration(svc: Services, search: Search, idx: Index, fs: FileSystem,
                                          path: string, text: string, n: nat)
    requires WellKeyed(idx.collection) && svc.hasRagDeps
    requires Update(svc, idx, fs, path).updated
    ensures path in fs
    ensures var hits := QueryResults(svc, search, Update(svc, idx, fs, path).index.collection, text, n);
            forall k | 0 <= k < |hits| && hits[k].source == path ::
              exists i :: 0 <= i < |svc.split(svc.decode(fs[path]))| && hits[k].content == svc.split(svc.decode(fs[path]))[i]
  {
    UpdateReplacesSource(svc, idx, fs, path);
    var c' := Update(svc, idx, fs, path).index.collection;
    var texts := svc.split(svc.decode(fs[path]));
    var embeddings := Embeddings(svc.embed, texts);
    var hits := QueryResults(svc, search, c', text, n);
    forall k | 0 <= k < |hits| && hits[k].source == path
      ensures exists i :: 0 <= i < |texts| && hits[k].content == texts[i]
    {
      var id :| id in c' && hits[k].content == c'[id].document && hits[k].source == c'[id].source;
      var i :| 0 <= i < |texts| && id == ChunkId(path, i);
      assert c'[id] == Chunk(texts[i], embeddings[i], path, i);
    }
  }

  class RAGManager {
    const svc: Services
    const search: Search
    /** The `file_metadata` table. */
    var metadata: Metadata
    /** The `knowledge_base` collection, by chunk id. */
    var collection: Collection

    ghost predicate Valid()
      reads this
    {
      WellKeyed(collection)
    }

    function State(): Index
      reads this
    {
      Index(metadata, collection)
    }

    /**
     * Opens the stores as they were persisted; without the vector store
     * dependencies no collection is opened.
     */
    constructor (svc: Services, search: Search, storedMetadata: Metadata, storedCollection: Collection)
      requires WellKeyed(storedCollection)
      ensures Valid() && this.svc == svc && this.search == search
      ensures metadata == storedMetadata
      ensures collection == if svc.hasRagDeps then storedCollection else map[]
    {
      this.svc := svc;
      this.search := search;
      metadata := storedMetadata;
      collection := if svc.hasRagDeps then storedCollection else map[];
    }

    /** `file_needs_update`: a read-only lookup of the path's row against the content hash. */
    function FileNeedsUpdate(fs: FileSystem, path: string): (r: bool)
      reads this
      ensures r <==> path in fs && (path !in metadata || metadata[path].fileHash != svc.fileHash(fs[path]))
    {
      NeedsUpdate(metadata, fs, svc.fileHash, path)
    }

    /** `_remove_file_from_rag`: fetch the ids whose source is the path and delete them. */
    method RemoveFileFromRag(path: string)
      requires Valid()
      modifies this
      ensures Valid()
      ensures metadata == old(metadata)
      ensures collection == if svc.hasRagDeps then RemoveSource(old(collection), path) else old(collection)
    {
      if svc.hasRagDeps {
        var ids := set id | id in collection && collection[id].source == path;
        if ids != {} {
          collection := collection - ids;
        }
        ghost var r := RemoveSource(old(collection), path);
        forall id ensures id in collection <==> id in r {
          if id in old(collection) && old(collection)[id].source == path {
            assert id in ids;
          }
        }
        assert collection == r;
      }
    }

    /** The collection's `add`: new ids are inserted, ids already present are left alone. */
    method Add(chunks: Collection)
      requires Valid() && WellKeyed(chunks)
      modifies this
      ensures Valid()
      ensures metadata == old(metadata)
      ensures collection == AddMissing(old(collection), chunks)
    {
      collection := AddMissing(collection, chunks);
    }

    /**
     * `update_file_if_changed`: the new state and the result are those of
     * `KnowledgeIndex.Update`, whose lemmas give replace-by-source,
     * idempotence and the empty-split behaviour.
     */
    method UpdateFileIfChanged(fs: FileSystem, path: string) returns (updated: bool)
      requires Valid()
      modifies this
      ensures Valid()
      ensures UpdateOutcome(updated, State()) == Update(svc, old(State()), fs, path)
    {
      ghost var before := State();
      UpdatePreservesWellKeyed(svc, before, fs, path);
      if !FileNeedsUpdate(fs, path) {
        return false;
      }
      var content := svc.decode(fs[path]);
      RemoveFileFromRag(path);
      var texts := svc.split(content);
      if texts == [] {
        return false;
      }
      var embeddings := GetEmbeddings(svc.embed, texts);
      if svc.hasRagDeps {
        GenerationWellKeyed(path, texts, embeddings);
        Add(Generation(path, texts, embeddings));
      }
      var currentHash := svc.fileHash(fs[path]);
      metadata := metadata[path := FileRecord(currentHash, |texts|)];
      return true;
    }

    /** `query`: embed the text, search, and list the hits in the store's order. */
    method Query(text: string, n: nat) returns (hits: seq<Hit>)
      ensures hits == QueryResults(svc, search, collection, text, n)
      ensures !svc.hasRagDeps ==> hits == []
      ensures forall k | 0 <= k < |hits| :: Stored(collection, hits[k])
    {
      if !svc.hasRagDeps {
        return [];
      }
      var queryEmbeddings := GetEmbeddings(svc.embed, [text]);
      var matches := search(queryEmbeddings[0], collection, n);
      hits := [];
      for i := 0 to |matches|
        invariant hits == HitsOf(collection, matches[..i])
      {
        HitsOfStep(collection, matches, i);
        var m := matches[i];
        if m.id in collection {
          hits := hits + [Hit(collection[m.id].document, collection[m.id].source, m.distance)];
        }
      }
      assert matches[..|matches|] == matches;
    }
  }

  /** The watchdog handler: only eligible create and modify events reach the manager. */
  class FileChangeHandler {
    const ragManager: RAGManager

    constructor (ragManager: RAGManager)
      ensures this.ragManager == ragManager
    {
      this.ragManager := ragManager;
    }

    method OnModified(fs: FileSystem, event: FileEvent)
      requires ragManager.Valid()
      modifies ragManager
      ensures ragManager.Valid()
      ensures ragManager.State() ==
        if WatcherAccepts(event) then Update(ragManager.svc, old(ragManager.State()), fs, event.srcPath).index
        else old(ragManager.State())
    {
      Dispatch(fs, event);
    }

    method OnCreated(fs: FileSystem, event: FileEvent)
      requires ragManager.Valid()
      modifies ragManager
      ensures ragManager.Valid()
      ensures ragManager.State() ==
        if WatcherAccepts(event) then Update(ragManager.svc, old(ragManager.State()), fs, event.srcPath).index
        else old(ragManager.State())
    {
      Dispatch(fs, event);
    }

    /** The filter and call that `on_modified` and `on_created` share. */
    method Dispatch(fs: FileSystem, event: FileEvent)
      requires ragManager.Valid()
      modifies ragManager
      ensures ragManager.Valid()
      ensures ragManager.State() ==
        if WatcherAccepts(event) then Update(ragManager.svc, old(ragManager.State()), fs, event.srcPath).index
        else old(ragManager.State())
    {
      if WatcherAccepts(event) {
        var _ := ragManager.UpdateFileIfChanged(fs, event.srcPath);
      }
    }
  }
}

=== FILE: text.dfy ===
/**
 * The Python string operations the tools rely on: `str.strip`, `str.lower`,
 * `in` on strings, `startswith`/`endswith`, `str(n)` for a natural number and
 * `sep.join(parts)`.
 */
module Text {

  /** Python's `str.isspace` for one character (the Unicode whitespace set). */
  predicate IsSpace(c: char) {
    var n := c as int;
    n == 0x20 || 0x09 <= n <= 0x0D || 0x1C <= n <= 0x1F || n == 0x85 || n == 0xA0
    || n == 0x1680 || 0x2000 <= n <= 0x200A || n == 0x2028 || n == 0x2029
    || n == 0x202F || n == 0x205F || n == 0x3000
  }

  predicate AllSpace(s: string) {
    forall i | 0 <= i < |s| :: IsSpace(s[i])
  }

  /** Drops leading whitespace. */
  function StripStart(s: string): (r: string)
    ensures |r| <= |s| && r == s[|s| - |r|..]
    ensures forall i | 0 <= i < |s| - |r| :: IsSpace(s[i])
    ensures r == [] <==> AllSpace(s)
    ensures r != [] ==> !IsSpace(r[0])
  {
    if s != [] && IsSpace(s[0]) then
      var r := StripStart(s[1..]);
      SpaceThenSuffix(s, r);
      r
    else s
  }

  /** A whitespace character followed by whitespace and then `r` is whitespace and then `r`. */
  lemma SpaceThenSuffix(s: string, r: string)
    requires s != [] && IsSpace(s[0])
    requires |r| <= |s| - 1 && r == s[1..][|s| - 1 - |r|..]
    requires forall i | 0 <= i < |s| - 1 - |r| :: IsSpace(s[1..][i])
    ensures r == s[|s| - |r|..]
    ensures forall i | 0 <= i < |s| - |r| :: IsSpace(s[i])
    ensures AllSpace(s) ==> AllSpace(s[1..])
  {
    var t := s[1..];
    assert t[|t| - |r|..] == s[|s| - |r|..];
    forall i | 0 <= i < |s| - |r| ensures IsSpace(s[i]) {
      if i > 0 {
        assert s[i] == t[i - 1];
      }
    }
    assert AllSpace(s) ==> AllSpace(t) by {
      forall i | 0 <= i < |t| ensures s[i + 1] == t[i] {}
    }
  }

  /** Drops trailing whitespace. */
  function StripEnd(s: string): (r: string)
    ensures |r| <= |s| && r == s[..|r|]
    ensures forall i | |r| <= i < |s| :: IsSpace(s[i])
    ensures r == [] <==> AllSpace(s)
    ensures r != [] ==> !IsSpace(r[|r| - 1])
  {
    if s != [] && IsSpace(s[|s| - 1]) then StripEnd(s[..|s| - 1]) else s
  }

  /**
   * Python's `s.strip()`: the slice of `s` left once the whitespace at both
   * ends is removed; what is removed is whitespace, and what is left neither
   * starts nor ends with it.
   */
  function Strip(s: string): (r: string)
    ensures |r| <= |s|
    ensures r == [] <==> AllSpace(s)
    ensures r != [] ==> !IsSpace(r[0]) && !IsSpace(r[|r| - 1])
    ensures exists k :: OccursAt(s, r, k) && SpaceAround(s, k, |r|)
  {
    StripFacts(s);
    StripEnd(StripStart(s))
  }

  /** What cutting whitespace off the front and then off the back leaves. */
  lemma StripFacts(s: string)
    ensures var r := StripEnd(StripStart(s));
      && (r == [] <==> AllSpace(s))
      && (r != [] ==> !IsSpace(r[0]))
      && OccursAt(s, r, |s| - |StripStart(s)|) && SpaceAround(s, |s| - |StripStart(s)|, |r|)
  {
    var t := StripStart(s);
    var r := StripEnd(t);
    assert r == [] <==> AllSpace(s) by {
      assert t != [] ==> !IsSpace(t[0]);
    }
    assert r != [] ==> !IsSpace(r[0]) by {
      assert r != [] ==> r[0] == t[0];
    }
    TrimmedSlice(s, t, r);
  }

  /** Whitespace cut off the front and then off the back leaves a slice with only whitespace around it. */
  lemma TrimmedSlice(s: string, t: string, r: string)
    requires |t| <= |s| && t == s[|s| - |t|..] && forall i | 0 <= i < |s| - |t| :: IsSpace(s[i])
    requires |r| <= |t| && r == t[..|r|] && forall i | |r| <= i < |t| :: IsSpace(t[i])
    ensures OccursAt(s, r, |s| - |t|) && SpaceAround(s, |s| - |t|, |r|)
  {
    var k := |s| - |t|;
    assert s[k..k + |r|] == r;
    forall i | 0 <= i < |s| && !(k <= i < k + |r|) ensures IsSpace(s[i]) {
      if i >= k + |r| {
        assert s[i] == t[i - k];
      }
    }
  }

  /** Every character of `s` outside the `n` characters from index `k` is whitespace. */
  predicate SpaceAround(s: string, k: int, n: int) {
    forall i | 0 <= i < |s| && !(k <= i < k + n) :: IsSpace(s[i])
  }

  /** Lower-cases the ASCII letters and leaves every other character alone. */
  function LowerChar(c: char): char {
    if 'A' <= c <= 'Z' then (c as int + 32) as char else c
  }

  predicate IsUpper(c: char) {
    'A' <= c <= 'Z'
  }

  /**
   * `s.lower()` on ASCII letters: the result has no upper-case ASCII letter,
   * each upper-case letter becomes its lower-case partner in place, and every
   * other character is kept.
   */
  function Lower(s: string): (r: string)
    ensures |r| == |s|
    ensures forall i | 0 <= i < |r| :: !IsUpper(r[i])
    ensures forall i | 0 <= i < |s| && !IsUpper(s[i]) :: r[i] == s[i]
    ensures forall i | 0 <= i < |s| && IsUpper(s[i]) :: r[i] as int == s[i] as int + ('a' as int - 'A' as int)
  {
    seq(|s|, i requires 0 <= i < |s| => LowerChar(s[i]))
  }

  /** Lower-casing twice is lower-casing once. */
  lemma LowerIdempotent(s: string)
    ensures Lower(Lower(s)) == Lower(s)
  {
    var l := Lower(s);
    assert forall i | 0 <= i < |l| :: Lower(l)[i] == l[i];
  }

  /** Appending to a concatenation appends to its second part. */
  lemma AppendAssociative(a: string, b: string, c: string)
    ensures (a + b) + c == a + (b + c)
  {
  }

  predicate StartsWith(s: string, prefix: string) {
    |prefix| <= |s| && s[..|prefix|] == prefix
  }

  predicate EndsWith(s: string, suffix: string) {
    |suffix| <= |s| && s[|s| - |suffix|..] == suffix
  }

  /** `k` occurs in `s` starting at index `i`. */
  predicate OccursAt(s: string, k: string, i: int) {
    0 <= i <= |s| - |k| && s[i..i + |k|] == k
  }

  /** Python's `k in s` for strings, scanning from the left. */
  predicate Contains(s: string, k: string)
    decreases |s|
  {
    |k| <= |s| && (s[..|k|] == k || (s != [] && Contains(s[1..], k)))
  }

  /** The left-to-right scan finds `k` exactly when `k` occurs somewhere in `s`. */
  lemma {:induction false} ContainsAt(s: string, k: string)
    ensures Contains(s, k) <==> exists i :: OccursAt(s, k, i)
    decreases |s|
  {
    if |k| <= |s| && s != [] {
      ContainsAt(s[1..], k);
      if Contains(s, k) {
        if s[..|k|] == k {
          assert OccursAt(s, k, 0);
        } else {
          var i :| OccursAt(s[1..], k, i);
          assert s[i + 1..i + 1 + |k|] == s[1..][i..i + |k|];
          assert OccursAt(s, k, i + 1);
        }
      }
      if exists i :: OccursAt(s, k, i) {
        var i :| OccursAt(s, k, i);
        if i > 0 {
          assert s[1..][i - 1..i - 1 + |k|] == s[i..i + |k|];
          assert OccursAt(s[1..], k, i - 1);
        }
      }
    } else if |k| <= |s| {
      assert OccursAt(s, k, 0);
    }
  }

  /** Python's `s.rfind(c)`: the index of the last `c` in `s`, or -1. */
  function LastIndexOf(s: string, c: char): (i: int)
    ensures -1 <= i < |s|
    ensures i >= 0 ==> s[i] == c
    ensures forall j | i < j < |s| :: s[j] != c
  {
    if s == [] then -1
    else if s[|s| - 1] == c then |s| - 1
    else LastIndexOf(s[..|s| - 1], c)
  }

  /** `rfind` is determined by where the last occurrence is. */
  lemma LastIndexOfIs(s: string, c: char, i: nat)
    requires i < |s| && s[i] == c
    requires forall j | i < j < |s| :: s[j] != c
    ensures LastIndexOf(s, c) == i
  {
  }

  function DigitChar(d: nat): char
    requires d < 10
  {
    ('0' as int + d) as char
  }

  predicate IsDigit(c: char) {
    '0' <= c <= '9'
  }

  /** `str(n)`: the decimal digits of n, no leading zeros. */
  function NatToString(n: nat): (s: string)
    ensures |s| >= 1
    ensures n >= 10 ==> |s| >= 2
    ensures forall i | 0 <= i < |s| :: IsDigit(s[i])
    decreases n
  {
    if n < 10 then [DigitChar(n)] else NatToString(n / 10) + [DigitChar(n % 10)]
  }

  /** Different numbers print differently. */
  lemma {:induction false} NatToStringInjective(n: nat, m: nat)
    ensures NatToString(n) == NatToString(m) ==> n == m
    decreases n
  {
    var a, b := NatToString(n), NatToString(m);
    if a == b && n >= 10 && m >= 10 {
      var a', b' := NatToString(n / 10), NatToString(m / 10);
      assert a == a' + [DigitChar(n % 10)] && b == b' + [DigitChar(m % 10)];
      assert a[|a| - 1] == DigitChar(n % 10) && b[|b| - 1] == DigitChar(m % 10);
      assert a' == a[..|a| - 1] && b' == b[..|b| - 1];
      NatToStringInjective(n / 10, m / 10);
    }
  }

  /** Python's `sep.join(parts)`. */
  function Join(sep: string, parts: seq<string>): (r: string)
    ensures parts != [] ==> StartsWith(r, parts[0])
  {
    if parts == [] then ""
    else if |parts| == 1 then parts[0]
    else parts[0] + sep + Join(sep, parts[1..])
  }

  /** Every part appears in the joined string. */
  lemma {:induction false} JoinHoldsParts(sep: string, parts: seq<string>)
    ensures forall i | 0 <= i < |parts| :: Contains(Join(sep, parts), parts[i])
    decreases |parts|
  {
    var j := Join(sep, parts);
    forall i | 0 <= i < |parts| ensures Contains(j, parts[i]) {
      ContainsAt(j, parts[i]);
      if i == 0 {
        assert j[..|parts[0]|] == parts[0];
        assert OccursAt(j, parts[0], 0);
      } else {
        var rest := Join(sep, parts[1..]);
        var d := |parts[0] + sep|;
        JoinHoldsParts(sep, parts[1..]);
        assert parts[1..][i - 1] == parts[i];
        ContainsAt(rest, parts[i]);
        var k :| OccursAt(rest, parts[i], k);
        assert j[d + k..d + k + |parts[i]|] == rest[k..k + |parts[i]|];
        assert OccursAt(j, parts[i], d + k);
      }
    }
  }

  /** What a string starts with, it still starts with once extended. */
  lemma StartsWithExtended(s: string, tail: string, prefix: string)
    requires StartsWith(s, prefix)
    ensures StartsWith(s + tail, prefix)
  {
    assert (s + tail)[..|prefix|] == s[..|prefix|];
  }

  /** What a string contains, it still contains behind a prefix. */
  lemma ContainedBehindPrefix(head: string, s: string, k: string)
    requires Contains(s, k)
    ensures Contains(head + s, k)
  {
    ContainsAt(s, k);
    var i :| OccursAt(s, k, i);
    assert (head + s)[|head| + i..|head| + i + |k|] == s[i..i + |k|];
    assert OccursAt(head + s, k, |head| + i);
    ContainsAt(head + s, k);
  }
}

=== FILE: wrappers.dfy ===
/** Option and Result, the two failure-carrying values the model uses. */
module Wrappers {

  datatype Option<+T> = None | Some(value: T)

  datatype Result<+R, +E> = Ok(value: R) | Err(error: E)
}
